=== FILE: README.md ===
# DictToXML in Dafny

A model of the core of `DictToXML.py`, a converter from Python values
(dicts, lists, strings, numbers, booleans, `None`) to an XML string, and
proofs of what the converter guarantees.

The model follows the module's structure:

- `values.dfy` (`Values`): the input values, errors, `Result`/`Option`,
  the `item_func` choice, the conversion options and `get_xml_type`.
- `text.dfy` (`Text`): Python's `str.replace` and `sep.join`, and decimal
  rendering and parsing of integers.
- `escape.dfy` (`Escape`): `escape_xml` and the per-character view of it.
- `cdata.dfy` (`Cdata`): `wrap_cdata` and a reader for CDATA sections
  (section 2.7 of XML 1.0).
- `attrs.dfy` (`Attrs`): attributes as an insertion-ordered dictionary and
  `make_attrstring`.
- `sanitiser.dfy` (`Sanitiser`): `key_is_valid_xml` with its validity
  cache, and the four tiers of `make_valid_xml_name`.
- `ids.dfy` (`Ids`): `make_id`, `get_unique_id` and the ids of list items.
- `convert.dfy` (`Convert`): `convert`, `convert_dict`,
  `convert_dict_item`, `convert_nested_structure`, `convert_list`,
  `convert_kv`, `convert_bool`, `convert_none` and `dicttoxml`.
- `convert_props.dfy` (`ConvertProps`): properties relating several
  converter operations.
- `examples.dfy` (`Examples`): worked keys and a worked document.

The process-wide state of the source (the validity cache, the registry of
ids, the random number generator) is threaded through the converter as a
`State` value. The source updates the `attr` dictionary in place; the model
returns the new attributes instead. A Python exception becomes an `Err`
result: `UnsupportedType` for the `TypeError` of an unsupported value,
`NoReplace` for the `AttributeError` that `wrap_cdata` raises on a number.

Behaviour of the code worth knowing, all of it kept by the model:

- `dicttoxml(None)` gives the default declaration
  `<?xml version="1.0" encoding="UTF-8" ?>` followed by
  `<root><root type="null"></root></root>`:
  `convert` routes `None` to `convert_none` with the name
  `item_func(parent)`, which is the root's name by default
  (`Examples.NoneDocument`).
- A dict or list held by a dict entry gets no wrapper element with the
  default `item_func`: `convert_nested_structure` only wraps when a custom
  `item_func` is given, so the id drawn for such an entry does not reach
  the output (`ConvertProps.NestedListDefaultIsBare`).
- The default `item_func` returns the parent's name; the docstring of
  `dicttoxml` says the default is `item`
  (`ConvertProps.DefaultItemNamedAfterParent`).

## Model

| member | source | states |
|---|---|---|
| Values.XmlType | DictToXML.py:99-119 | each supported kind gets its own tag (`null`, `bool`, `str`, `int`, `dict`, `list`), in both directions; anything else is tagged by its type name |
| Text.ParseNatToString | DictToXML.py:85-87 | reading back the decimal digits of a number gives the number |
| Text.NatToStringInjective | DictToXML.py:85-87 | different numbers get different decimal renderings |
| Text.IntToStringRoundTrip | DictToXML.py:268-269 | `str(i)` of an integer is a minus sign exactly for negatives followed by digits, and reads back to the integer |
| Text.ReplaceAbsent | DictToXML.py:127-131 | `replace` on a string with no occurrence of the pattern returns it unchanged |
| Text.ReplaceCharGone | DictToXML.py:309-310 | replacing a character by text without it leaves no occurrence of it, so `replace(' ', '_')` leaves no space |
| Escape.EscapeXml | DictToXML.py:122-132 | the output equals the per-character escape of the input, contains no raw `"`, `'`, `<`, `>`, every `&` in it opens one of the five entities, it unescapes back to the input, and a string without special characters is unchanged |
| Escape.PassesArePerChar | DictToXML.py:127-131 | the five sequential `replace` passes, `&` first, equal escaping each character on its own: no entity is escaped twice |
| Escape.UnescapeEscapeEach | DictToXML.py:122-132 | unescaping the escaped string gives the original back |
| Escape.EscapeEachNoRaw | DictToXML.py:127-131 | after escaping no raw markup character remains |
| Escape.EscapeEachEntities | DictToXML.py:127-131 | after escaping every `&` starts an entity |
| Escape.EscapeEachIdentity | DictToXML.py:122-132 | a string with none of the five special characters is left as it is |
| Cdata.WrapCdata | DictToXML.py:336-339 | the output starts a CDATA section, and reading it as a run of CDATA sections gives back exactly the input, including every `]]>` inside it |
| Cdata.WrapPlain | DictToXML.py:336-339 | text without `]]>` becomes exactly one section: `<![CDATA[`, the text, `]]>` |
| Cdata.BodyOfEncoded | DictToXML.py:338 | the text with each `]]>` split across two sections reads back to the text |
| Cdata.NoEarlyClose | DictToXML.py:338 | text that does not start with `]]>` does not start with `]]>` once each `]]>` in it is split, so no section closes early |
| Attrs.LookupFinds | DictToXML.py:265-266 | reading a key finds a value exactly when some attribute has that name, and the value found is that of the first attribute with it |
| Attrs.SetAttr | DictToXML.py:312 | after `attr[k] = v` the key maps to `v`, every other key keeps its value, a new key goes last and an existing one keeps its place |
| Attrs.AttrString | DictToXML.py:135-143 | the result is empty exactly when there are no attributes, and otherwise is each `k="v"` in insertion order, each preceded by one space |
| Attrs.JoinIsSpaced | DictToXML.py:140-143 | a leading space plus the space-joined parts equals each part preceded by a space |
| Attrs.AttrStringAppend | DictToXML.py:265-267 | adding one attribute at the end appends ` k="v"` to the attribute string |
| Sanitiser.KeyIsValidXml | DictToXML.py:316-333 | a cached verdict is returned unchanged and the cache is kept; a miss computes pattern-and-parser validity, records it, and records `true` only for names the pattern matches; a sound cache stays sound |
| Sanitiser.KeyIsValidXmlIdempotent | DictToXML.py:318-319 | testing the same key twice gives the same verdict and leaves the cache as the first test left it |
| Sanitiser.NamePatternNewline | DictToXML.py:10 | the pattern matches a name followed by one newline, since `$` matches before a final newline, though the newline is no name character |
| Sanitiser.RemoveFirstDotSpec | DictToXML.py:306 | `replace('.', '', 1)` is the text before the first dot followed by the text after it |
| Sanitiser.NumericKeyIff | DictToXML.py:306 | a key counts as a number exactly when it is digits and dots, with no two dots and at least one digit |
| Sanitiser.NumericKeyPrefixed | DictToXML.py:306-307 | a key of digits with at most one dot, prefixed by `n`, matches the name pattern |
| Sanitiser.PatternHasNoSpecials | DictToXML.py:10 | a name the pattern matches contains no character that escaping changes |
| Sanitiser.MakeValidXmlName | DictToXML.py:298-313 | the escaped key is kept if valid, else prefixed by `n` if numeric, else has spaces made underscores if that is valid, else becomes `key` with the escaped key in a `name` attribute; only the last tier touches the attributes; the cache only grows and stays sound; with a sound cache the name always matches the pattern, whatever the parser |
| Sanitiser.SanitiseKeepsPatternNames | DictToXML.py:298-304 | a name the pattern matches is kept, attributes untouched |
| Sanitiser.SanitiseTwiceIsNoOp | DictToXML.py:263 | sanitising an already sanitised name again, as the leaf emitters do, changes neither name nor attributes |
| Ids.Candidate | DictToXML.py:85 | every draw yields a number between 100000 and 999999 |
| Ids.MakeIdShape | DictToXML.py:85-87 | an id is the element name, `_` and a number between 100000 and 999999 |
| Ids.GetUniqueId | DictToXML.py:90-96 | the id returned was not in the registry, the registry gains exactly it, it is the id of the last draw consumed, every draw consumed before it gave an id already in the registry, and draws are only consumed |
| Ids.AllCollideAt | DictToXML.py:92-94 | every draw colliding, as the loop tests it draw after draw, means the registry holds the id made from the draw at each position |
| Ids.ExhaustedIffAllCollide | DictToXML.py:92-94 | allocation fails exactly when every available draw collides with an id already handed out |
| Ids.SuccessiveIdsDiffer | DictToXML.py:90-96 | a second allocation after a first gives a different id, and the first stays registered |
| Ids.ItemId | DictToXML.py:226 | an item id is the list id, `_`, and the decimal rendering of the position plus one |
| Ids.ItemIdsDistinct | DictToXML.py:226 | items at different positions of a list get different ids |
| Convert.LeafText | DictToXML.py:268 | CDATA fails exactly for non-strings; escaped text has no raw markup and unescapes to the string; CDATA text reads back to the string; a number is its decimal rendering, which reads back to it, and a boolean is `True`/`False` |
| Convert.WithType | DictToXML.py:265-266 | with type attributes on, `type` holds the value's tag and every other attribute keeps its value; a `type` not yet present goes last, and otherwise the names keep their order; with them off the attributes are unchanged |
| Convert.ConvertKv | DictToXML.py:258-269 | fails exactly when CDATA is on and the value is not a string, with the `AttributeError` of that value's type; otherwise the element is named by the sanitised key and holds the escaped or CDATA-wrapped text; with type attributes on it carries the sanitised key's attributes (an `id`, a `name`) in their order followed by the value's tag as `type`, with them off exactly those attributes; only the cache changes |
| Convert.ConvertBool | DictToXML.py:272-282 | the element is named by the sanitised key and holds `true` or `false`; with type attributes on it carries the sanitised key's attributes in their order followed by `type="bool"`, with them off exactly those; only the cache changes, registry and draws stay as they were |
| Convert.ConvertNone | DictToXML.py:285-295 | the element is named by the sanitised key and has no text; with type attributes on it carries the sanitised key's attributes in their order followed by `type="null"`, with them off exactly those; only the cache changes, registry and draws stay as they were |
| Convert.IdAttrs | DictToXML.py:184 | with ids on, one `id` attribute holding `make_id(parent)` of the last draw consumed, every earlier draw having given an id already handed out, so the first free candidate; it was not handed out before and the registry gains it; the cache is untouched; a failure is the exhaustion of the draws for `parent`; with ids off, no attributes and no state change |
| Convert.ConvertValue | DictToXML.py:146-170 | succeeds only on convertible values and fails only on unconvertible ones or exhausted ids; an unsupported value fails with the `TypeError` naming its type and printed form; without CDATA every failure is such a type error or exhausted ids; state only evolves |
| Convert.ConvertDict | DictToXML.py:173-180 | succeeds only when every entry is convertible; without ids it fails only for an unconvertible entry; without CDATA every failure is a type error or exhausted ids |
| Convert.ConvertScalarEntry | DictToXML.py:187-200 | a boolean, number, string or `None` held by a dict entry fails exactly when it is not convertible there (a number under CDATA), and then with the `AttributeError` of `int`; otherwise it is one element named by sanitising the entry's name once more, holding `true`/`false` for a boolean, nothing for `None` and the leaf text for a number or string, typed by the value's tag; only the cache changes |
| Convert.ConvertDictItem | DictToXML.py:183-203 | a failed id draw fails the entry; after the draw an unsupported value fails with the `TypeError` naming it; booleans here are not subject to CDATA; without CDATA every failure is a type error or exhausted ids; state only evolves |
| Convert.ConvertNested | DictToXML.py:206-217 | the nested container converts or fails as a whole; without CDATA every failure is a type error or exhausted ids; state only evolves |
| Convert.Wrapped | DictToXML.py:215-217 | with the default `item_func` the wrapper is dropped and the inner content is returned as it is; with a custom one the content is inside an element named by the key, carrying the container's tag as `type` when type attributes are on and the entry's other attributes |
| Convert.ConvertList | DictToXML.py:220-255 | succeeds only when every item is convertible in list position, where booleans fail under CDATA; without CDATA every failure is a type error or exhausted ids |
| Convert.ConvertItems | DictToXML.py:225-255 | the item loop from a position on succeeds only when every remaining item is convertible; without CDATA every failure is a type error or exhausted ids |
| Convert.ConvertListItem | DictToXML.py:225-253 | one item converts exactly when it is convertible in list position, absent id exhaustion; an unsupported item fails with the `TypeError` naming it |
| Convert.Frame | DictToXML.py:48-62 | with a root the output starts with the declaration when one is asked for and with the root's open tag otherwise, and ends with the root element around the body, so with the root's close tag; without a root it is the body |
| Convert.Declaration | DictToXML.py:51-55 | the declaration is exactly `<?xml version="1.0" encoding="ENC" ?>` with the given encoding when one is to be included, and `<?xml version="1.0" ?>` otherwise |
| Convert.DictToXml | DictToXML.py:19-65 | without a root the output is the body converted with parent `''`; with a root it is the optional declaration and the root element around the body converted with the root as parent, and a failure of the body is the failure of the document; without ids it succeeds exactly when the value is convertible; a failure is an unsupported type, a non-string under CDATA, or exhausted ids |
| ConvertProps.DictConcat | DictToXML.py:173-180 | converting two runs of entries in sequence equals converting their concatenation: one fragment per entry, in insertion order, and the first failure ends it |
| ConvertProps.ItemsConcat | DictToXML.py:225-255 | converting two runs of items in sequence, the second numbered on from where the first stopped, equals converting their concatenation: one fragment per item, in list order, and the first failure ends it |
| ConvertProps.TopLevelScalarElement | DictToXML.py:146-158 | a top-level boolean, `None`, number or string is one element named by the sanitised `item_func(parent)`, holding `true`/`false`, nothing, or the leaf text; it carries the sanitised name's attributes (a `name` for the fallback tier), followed by its type when type attributes are on; only a number under CDATA fails |
| ConvertProps.TopLevelContainer | DictToXML.py:164-168 | a top-level dict or list is converted by `convert_dict` or `convert_list` with the same parent, with no element, sanitisation or id of its own |
| ConvertProps.DictBoolIsLowercase | DictToXML.py:183-188 | a boolean dict value fails only when its id draw does, and otherwise is the element named by sanitising the sanitised key again, holding `true`/`false`, typed `bool`, carrying the key's attributes |
| ConvertProps.ListBoolIsCapitalised | DictToXML.py:228-229 | a boolean list item goes through `convert_kv`: a failure with CDATA; without it the element named by the sanitised item name holding `True`/`False`, typed `bool`, carrying the item's id when the list has one |
| ConvertProps.ListItemsFromParent | DictToXML.py:220-226 | a list whose id draw fails fails for its parent; otherwise its items, numbered from 0, are named `item_func(parent)` and their ids derive from the one id drawn for the list |
| ConvertProps.ScalarItemElement | DictToXML.py:225-229 | a number, string or boolean item fails exactly under CDATA for a non-string, and otherwise is the element named by the sanitised item name, holding the leaf text, typed, and carrying `{id}_{i+1}` as `id` when the list has an id |
| ConvertProps.NullItemElement | DictToXML.py:249-250 | a `None` item is an empty element named by the sanitised item name, typed `null`, carrying `{id}_{i+1}` as `id` when the list has an id |
| ConvertProps.NestedDictDefaultIsBare | DictToXML.py:206-217 | with the default `item_func`, ids on or off, a nested dict leaves no element of its own: after the id draw it is the inner dict converted with the sanitised key as parent |
| ConvertProps.NestedListDefaultIsBare | DictToXML.py:206-217 | with the default `item_func`, ids on or off, a nested list leaves no element of its own |
| ConvertProps.NestedDictCustomIsWrapped | DictToXML.py:206-216 | with a custom `item_func`, ids on or off, a nested dict is wrapped in an element named by the sanitised key, carrying its attributes and `type="dict"` when type attributes are on |
| ConvertProps.NestedListCustomIsWrapped | DictToXML.py:206-216 | with a custom `item_func`, ids on or off, a nested list is wrapped in an element named by the sanitised key, carrying its attributes and `type="list"` when type attributes are on |
| ConvertProps.DictInListWrapped | DictToXML.py:237-239 | a dict in a list is wrapped in an unsanitised, untyped element named by the item name with the item's id, and its entries are converted with the list's parent as context |
| ConvertProps.NestedListInListWrapper | DictToXML.py:241-245 | a list in a list, default `item_func`, is wrapped in an element named by the item name carrying the item's id, if any, and then `type="list"` when type attributes are on |
| ConvertProps.ListWrapperText | DictToXML.py:242-245 | the wrapper written by hand, the literal ` type="list"` after the attribute string, is the element with a `type` attribute holding `list` added last |
| ConvertProps.NestedListInListCustomIsSpliced | DictToXML.py:246-247 | with a custom `item_func` a list in a list is spliced in without a wrapper |
| ConvertProps.StringEntrySanitisedOnce | DictToXML.py:183-191 | ids on or off, a string entry is the element named by one sanitisation of the key, holding the escaped string, carrying the key's attributes and, with ids on, the id drawn for it |
| ConvertProps.IdSurvivesSanitiser | DictToXML.py:298-313 | the `id` attribute handed to `make_valid_xml_name` comes out unchanged in every tier |
| ConvertProps.DefaultItemNamedAfterParent | DictToXML.py:14-16 | with the default `item_func` the items of every list are named after the list's parent |
| ConvertProps.EmptyDictIsEmpty | DictToXML.py:173-180 | an empty mapping converts to the empty string and leaves the state as it was |
| Convert.FrameRooted | DictToXML.py:50-58 | with a root the output is the optional declaration followed by the root element, without attributes, around the body |
| Convert.BareElement | DictToXML.py:57-58 | an element without attributes is the open tag, the body and the close tag, as the root is written |
| ConvertProps.EmptyDictDocument | DictToXML.py:48-62 | an empty mapping under the root is the declaration and an empty root element |
| Examples.NumericKeyExample | DictToXML.py:306-307 | the key `123` becomes `n123` |
| Examples.UnderscoreTier | DictToXML.py:309-310 | a key that is neither a valid name nor numeric, whose underscored form is a valid name, is renamed to that form without attributes |
| Examples.SpacedKeyExample | DictToXML.py:309-310 | the key `my key` becomes `my_key` |
| Examples.FallbackKeyExample | DictToXML.py:312-313 | the key `1 a` becomes `key` with a `name="1 a"` attribute |
| Examples.NoneElement | DictToXML.py:154-155 | top-level `None` with the default `item_func` is an empty element named after the parent, tagged `null` |
| Examples.NoneDocument | DictToXML.py:48-62 | `None` under the root is the declaration followed by the root element holding an empty element named after the root, tagged `null` |

## Left out

- Logging and `set_debug` are not modelled: they only write diagnostics.
- `parseString`, the XML parser `key_is_valid_xml` calls, is a parameter of
  the options (`parser`), since its code is not part of this model. The
  properties that need it to agree with the name pattern say so with
  `PatternAdmitted`.
- `randint` is replaced by a finite sequence of draws. The source retries
  forever while the candidate id is taken; the model fails with
  `IdsExhausted` when the draws run out.
- Ids.GetUniqueId: does not promise termination of the unbounded retry loop, because with finite draws running out is reported as `IdsExhausted` instead.
- Convert.LeafText: renders every integer, however long. Python 3.10.7
  and later raise `ValueError` when an integer of more than 4300 decimal
  digits is formatted, an interpreter setting outside the module; that
  error path is not modelled.
- Numbers are integers only: floats, `Decimal` and the `number` tag of
  `get_xml_type` are left out, since Dafny has no Python float semantics.
- Values with an `isoformat` method (dates and times) are left out; their
  output is that of the string `isoformat()` returns, so a `Str` value
  stands for them.
- Byte strings and `convert_byte_strings` are left out: the model's strings
  are already decoded. For the same reason `return_bytes` and the final
  `.encode('utf-8')` are left out.
- Dict keys are strings. A key of another type makes `key_is_valid_xml`
  raise a `TypeError` when it matches the pattern against it; that path is
  left out.
- Tuples behave as lists and are represented by `List`.
- `isdigit` is ASCII only here; Python also accepts other Unicode digits.
- Convert.ConvertValue: the state after a failure is not modelled, because an exception leaves the process-wide cache and registry in whatever state it reached and the caller gets no output.
- Cycles in the input and Python's recursion limit are left out: Dafny
  values are finite trees.
- The name pattern is ASCII, as in the source; Python's `$` also matches
  before one trailing newline, and the model keeps that.

=== FILE: attrs.dfy ===
/** Element attributes: an insertion-ordered dictionary from attribute name
    to value, and `make_attrstring`. */
module Attrs {
  import opened Values
  import opened Text

  type Attrs = seq<(string, string)>

  /** `attr.get(k)`. */
  function Lookup(a: Attrs, k: string): Option<string>
  {
    if a == [] then None
    else if a[0].0 == k then Some(a[0].1)
    else Lookup(a[1..], k)
  }

  /** A lookup finds a value exactly when some attribute has the name, and
      the value it finds is that of the first such attribute. */
  lemma {:induction false} LookupFinds(a: Attrs, k: string)
    ensures Lookup(a, k).Some? <==> exists i :: 0 <= i < |a| && a[i].0 == k
    ensures Lookup(a, k).Some? ==>
      exists i :: 0 <= i < |a| && a[i] == (k, Lookup(a, k).value)
                  && forall j | 0 <= j < i :: a[j].0 != k
  {
    if a != [] && a[0].0 != k {
      LookupFinds(a[1..], k);
      if Lookup(a, k).Some? {
        var i :| 0 <= i < |a[1..]| && a[1..][i] == (k, Lookup(a, k).value)
                 && forall j | 0 <= j < i :: a[1..][j].0 != k;
        assert a[i + 1] == (k, Lookup(a, k).value);
        assert forall j | 0 <= j < i + 1 :: a[j].0 != k by {
          forall j | 0 <= j < i + 1 ensures a[j].0 != k {
            if j > 0 { assert a[j] == a[1..][j - 1]; }
          }
        }
      } else {
        forall i | 0 <= i < |a| ensures a[i].0 != k {
          if i > 0 { assert a[i] == a[1..][i - 1]; }
        }
      }
    } else if a != [] {
      assert a[0] == (k, Lookup(a, k).value);
    }
  }

  function Names(a: Attrs): seq<string>
  {
    if a == [] then [] else [a[0].0] + Names(a[1..])
  }

  /** `attr[k] = v` on a Python dict: an existing key keeps its position and
      takes the new value; a new key goes to the end. */
  function SetAttr(a: Attrs, k: string, v: string): (r: Attrs)
    ensures Lookup(r, k) == Some(v)
    ensures forall k' | k' != k :: Lookup(r, k') == Lookup(a, k')
    ensures Lookup(a, k).None? ==> r == a + [(k, v)]
    ensures Lookup(a, k).Some? ==> Names(r) == Names(a)
  {
    if a == [] then [(k, v)]
    else if a[0].0 == k then [(k, v)] + a[1..]
    else
      var r' := SetAttr(a[1..], k, v);
      assert ([a[0]] + r')[1..] == r';
      [a[0]] + r'
  }

  /** One `k="v"` part. */
  function Part(kv: (string, string)): string
  {
    kv.0 + "=\"" + kv.1 + "\""
  }

  function Parts(a: Attrs): seq<string>
  {
    if a == [] then [] else [Part(a[0])] + Parts(a[1..])
  }

  /** Reference definition: each attribute preceded by one space. */
  function SpacedParts(a: Attrs): string
  {
    if a == [] then "" else " " + Part(a[0]) + SpacedParts(a[1..])
  }

  /** `make_attrstring`: the empty string for no attributes, otherwise the
      `k="v"` parts joined by spaces behind one leading space. So each
      attribute, in insertion order, is written as ` k="v"`. */
  function AttrString(a: Attrs): (r: string)
    ensures r == SpacedParts(a)
    ensures r == "" <==> a == []
  {
    if a == [] then ""
    else
      var s := Join(Parts(a), " ");
      JoinIsSpaced(a);
      (if s != "" then " " else "") + s
  }

  lemma {:induction false} JoinIsSpaced(a: Attrs)
    requires a != []
    ensures Join(Parts(a), " ") != ""
    ensures " " + Join(Parts(a), " ") == SpacedParts(a)
  {
    var ps := Parts(a);
    var p := Part(a[0]);
    assert ps == [p] + Parts(a[1..]);
    assert |p| >= 3;
    if |a| >= 2 {
      JoinIsSpaced(a[1..]);
      assert ps[1..] == Parts(a[1..]);
      var j := Join(Parts(a[1..]), " ");
      assert Join(ps, " ") == p + " " + j;
      assert SpacedParts(a) == " " + p + (" " + j);
      assert " " + (p + " " + j) == " " + p + (" " + j);
    } else {
      assert a[1..] == [];
      assert Join(ps, " ") == p;
      assert SpacedParts(a) == " " + p + "";
    }
  }

  /** Appending an attribute appends its text. */
  lemma {:induction false} AttrStringAppend(a: Attrs, kv: (string, string))
    ensures AttrString(a + [kv]) == AttrString(a) + " " + Part(kv)
  {
    SpacedPartsAppend(a, kv);
  }

  lemma {:induction false} SpacedPartsAppend(a: Attrs, kv: (string, string))
    ensures SpacedParts(a + [kv]) == SpacedParts(a) + " " + Part(kv)
  {
    if a != [] {
      assert (a + [kv])[1..] == a[1..] + [kv];
      SpacedPartsAppend(a[1..], kv);
    } else {
      assert [kv][1..] == [];
    }
  }
}

=== FILE: cdata.dfy ===
/** `wrap_cdata`: CDATA sections, section 2.7 of XML 1.0. A section runs from
    `<![CDATA[` to the first `]]>`, so a `]]>` inside the text is split
    across two sections. */
module Cdata {
  import opened Values
  import opened Text

  const Open: string := "<![CDATA["
  const Close: string := "]]>"
  const Split: string := "]]]]><![CDATA[>"

  /** `wrap_cdata` on a string. Reading the result back as a run of CDATA
      sections yields exactly `s`. */
  function WrapCdata(s: string): (r: string)
    ensures StartsWith(r, Open)
    ensures ReadSections(r) == Some(s)
  {
    var r := Open + Replace(s, Close, Split) + Close;
    assert r[..|Open|] == Open;
    assert r[|Open|..] == Encoded(s);
    BodyOfEncoded(s);
    r
  }

  /** Text with no `]]>` in it is wrapped in exactly one section. */
  lemma WrapPlain(s: string)
    requires forall i :: !OccursAt(s, Close, i)
    ensures WrapCdata(s) == Open + s + Close
  {
    ReplaceAbsent(s, Close, Split);
  }

  /** The text of a run of CDATA sections, or None when `r` is not one. */
  function ReadSections(r: string): Option<string>
  {
    if StartsWith(r, Open) then Body(r[|Open|..]) else None
  }

  /** Section contents up to the first `]]>`; after it, either the end or
      the opening of the next section. */
  function Body(t: string): Option<string>
    decreases |t|
  {
    if StartsWith(t, Close) then
      var rest := t[|Close|..];
      if rest == [] then Some([])
      else if StartsWith(rest, Open) then Body(rest[|Open|..])
      else None
    else if t == [] then None
    else match Body(t[1..])
      case Some(x) => Some([t[0]] + x)
      case None => None
  }

  /** The text after the opening `<![CDATA[` of `wrap_cdata`'s output. */
  function Encoded(s: string): string
  {
    Replace(s, Close, Split) + Close
  }

  /** One step of the replacement when `s` does not start with `]]>`. */
  lemma EncodedUnfold(s: string)
    requires s != [] && !StartsWith(s, Close)
    ensures Encoded(s) == [s[0]] + Encoded(s[1..])
  {
    if |s| < 3 {
      assert forall i :: !OccursAt(s[1..], Close, i);
    }
  }

  /** The replacement keeps the first character. */
  lemma EncodedFirst(s: string)
    ensures Encoded(s)[0] == if s == [] then ']' else s[0]
  {
    if s != [] && !StartsWith(s, Close) {
      EncodedUnfold(s);
    }
  }

  /** The encoding of a non-empty text that does not start with `]]>`
      does not start with `]]>` either: no section ends early. */
  lemma NoEarlyClose(s: string)
    requires s != [] && !StartsWith(s, Close)
    ensures !StartsWith(Encoded(s), Close)
  {
    EncodedUnfold(s);
    var e := Encoded(s);
    var t := s[1..];
    if t == [] {
      assert e == [s[0]] + Close;
      assert e[2] == ']';
    } else {
      EncodedFirst(t);
      assert e[1] == s[1];
      if StartsWith(t, Close) {
        assert t[..3] == Close;
        assert Encoded(t) == Split + Encoded(t[3..]);
        assert e[2] == ']';
      } else if |t| == 1 {
        assert Replace(t, Close, Split) == t;
        assert e[2] == ']';
      } else {
        EncodedUnfold(t);
        EncodedFirst(t[1..]);
        assert e[2] == s[2];
        assert e[..3] == s[..3];
      }
    }
  }

  /** Body reads an ordinary character. */
  lemma BodyStep(t: string)
    requires t != [] && !StartsWith(t, Close)
    ensures Body(t) == match Body(t[1..]) case Some(x) => Some([t[0]] + x) case None => None
  {
  }

  lemma BodyCons(c: char, rest: string, x: string)
    requires !StartsWith([c] + rest, Close)
    requires Body(rest) == Some(x)
    ensures Body([c] + rest) == Some([c] + x)
  {
    BodyStep([c] + rest);
    assert ([c] + rest)[1..] == rest;
  }

  /** Body steps over a section boundary. */
  lemma BodyBoundary(t: string)
    requires StartsWith(t, Close + Open)
    ensures Body(t) == Body(t[|Close + Open|..])
  {
    assert t[..3] == Close;
    var rest := t[3..];
    assert rest[..9] == Open;
    assert rest[9..] == t[12..];
  }

  /** What the replacement of one `]]>` reads back as. */
  lemma BodyAfterSplit(e: string, x: string)
    requires Body(e) == Some(x)
    ensures Body(Split + e) == Some(Close + x)
  {
    var u := ['>'] + e;
    BodyCons('>', e, x);
    var t2 := Close + Open + u;
    assert StartsWith(t2, Close + Open) && t2[12..] == u;
    BodyBoundary(t2);
    var t1 := [']'] + t2;
    assert t1[..3] == "]]]";
    BodyCons(']', t2, ['>'] + x);
    var t := [']'] + t1;
    assert t[..3] == "]]]";
    BodyCons(']', t1, [']'] + (['>'] + x));
    SplitShape(e);
    assert Close == [']', ']', '>'];
    assert Close + x == [']'] + ([']'] + (['>'] + x));
  }

  lemma SplitShape(e: string)
    ensures Split + e == [']'] + ([']'] + (Close + Open + (['>'] + e)))
  {
    assert Split == [']', ']'] + Close + Open + ['>'];
  }

  lemma {:induction false} BodyOfEncoded(s: string)
    ensures Body(Encoded(s)) == Some(s)
    decreases |s|
  {
    if s == [] {
      assert Encoded(s) == Close;
    } else if StartsWith(s, Close) {
      var s' := s[3..];
      BodyOfEncoded(s');
      assert s[..3] == Close;
      assert Encoded(s) == Split + Encoded(s');
      BodyAfterSplit(Encoded(s'), s');
      assert s == Close + s';
    } else {
      EncodedUnfold(s);
      NoEarlyClose(s);
      BodyOfEncoded(s[1..]);
      var t := Encoded(s);
      BodyStep(t);
      assert t[1..] == Encoded(s[1..]);
      assert s == [s[0]] + s[1..];
    }
  }
}

=== FILE: convert.dfy ===
/** The conversion engine: `convert` and the emitters it routes values to,
    and the entry point `dicttoxml`. The validity cache, the id registry and
    the random draws are threaded through as a `State`; the source's in-place
    updates of `attr` become returned values. */
module Convert {
  import opened Values
  import opened Text
  import opened Escape
  import opened Cdata
  import opened Attrs
  import opened Sanitiser
  import opened Ids

  /** The process-wide state the engine reads and writes. */
  datatype State = State(cache: map<string, bool>, registry: set<string>, draws: seq<nat>)

  /** An emitted fragment and the state after emitting it. */
  datatype Out = Out(xml: string, st: State)

  /** How the state may change during a conversion: cache entries are only
      added, and a sound cache stays sound; ids are only added; draws are
      only consumed; and without ids neither registry nor draws move. */
  predicate Evolves(opts: Options, s: State, t: State)
  {
    && Extends(s.cache, t.cache)
    && (CacheSound(opts.parser, s.cache) ==> CacheSound(opts.parser, t.cache))
    && s.registry <= t.registry
    && IsSuffix(t.draws, s.draws)
    && (!opts.ids ==> t.registry == s.registry && t.draws == s.draws)
  }

  /** A successful step after `a` to `b` keeps the evolution from `a`. */
  lemma EvolvesThen(opts: Options, a: State, b: State, r: Result<Out>)
    requires Evolves(opts, a, b)
    ensures r.Ok? && Evolves(opts, b, r.value.st) ==> Evolves(opts, a, r.value.st)
  {
    if r.Ok? && Evolves(opts, b, r.value.st) {
      EvolvesTrans(opts, a, b, r.value.st);
    }
  }

  lemma EvolvesTrans(opts: Options, a: State, b: State, c: State)
    requires Evolves(opts, a, b) && Evolves(opts, b, c)
    ensures Evolves(opts, a, c)
  {
    assert c.draws == a.draws[|a.draws| - |b.draws|..][|b.draws| - |c.draws|..];
  }

  /** Whether a value converts without a type error, by where it sits. A
      list routes booleans through `convert_kv`, so there they fail under
      CDATA like numbers do; elsewhere booleans go through `convert_bool`,
      which ignores CDATA. */
  predicate Convertible(v: Value, cdata: bool, inList: bool)
    decreases v
  {
    match v
    case Null => true
    case Bool(_) => !(inList && cdata)
    case Int(_) => !cdata
    case Str(_) => true
    case Dict(es) => EntriesConvertible(es, cdata)
    case List(xs) => ItemsConvertible(xs, cdata)
    case Unsupported(_, _) => false
  }

  predicate EntriesConvertible(es: seq<(string, Value)>, cdata: bool)
    decreases es
  {
    es == [] || (assert es[0].1 < es[0]; Convertible(es[0].1, cdata, false) && EntriesConvertible(es[1..], cdata))
  }

  predicate ItemsConvertible(xs: seq<Value>, cdata: bool)
    decreases xs
  {
    xs == [] || (Convertible(xs[0], cdata, true) && ItemsConvertible(xs[1..], cdata))
  }

  /** `<name attrs>content</name>`. */
  function Element(name: string, attr: Attrs, content: string): string
  {
    "<" + name + AttrString(attr) + ">" + content + "</" + name + ">"
  }

  /** `str(val).lower()` for a boolean. */
  function LowerBool(b: bool): string
  {
    if b then "true" else "false"
  }

  /** `str(val)` for a boolean. */
  function PyBool(b: bool): string
  {
    if b then "True" else "False"
  }

  /** The text of a `convert_kv` element: `wrap_cdata(val) if cdata else
      escape_xml(val)`, rendered by the f-string. `escape_xml` returns a
      number unchanged; `wrap_cdata` calls `.replace` on it and fails. */
  function LeafText(v: Value, cdata: bool): (r: Result<string>)
    requires v.Str? || v.Int? || v.Bool?
    ensures r.Err? <==> cdata && !v.Str?
    ensures r.Ok? && v.Str? && !cdata ==> NoRawMarkup(r.value) && Unescape(r.value) == v.s
    ensures r.Ok? && v.Str? && cdata ==> ReadSections(r.value) == Some(v.s)
    ensures r.Ok? && v.Int? ==> r.value == IntToString(v.i) && ParseInt(r.value) == v.i
    ensures r.Ok? && v.Bool? ==> r.value == PyBool(v.b)
  {
    match v
    case Str(s) => Ok(if cdata then WrapCdata(s) else EscapeXml(s))
    case Int(i) =>
      IntToStringRoundTrip(i);
      if cdata then Err(NoReplace("int")) else Ok(IntToString(i))
    case Bool(b) => if cdata then Err(NoReplace("bool")) else Ok(PyBool(b))
  }

  /** The `type` attribute added when type attributes are on. */
  function WithType(opts: Options, attr: Attrs, v: Value): (r: Attrs)
    ensures opts.attrType ==> Lookup(r, "type") == Some(XmlType(v))
    ensures opts.attrType ==> forall k | k != "type" :: Lookup(r, k) == Lookup(attr, k)
    ensures opts.attrType && Lookup(attr, "type").None? ==> r == attr + [("type", XmlType(v))]
    ensures opts.attrType && Lookup(attr, "type").Some? ==> Names(r) == Names(attr)
    ensures !opts.attrType ==> r == attr
  {
    if opts.attrType then SetAttr(attr, "type", XmlType(v)) else attr
  }

  /** The attributes `a` an element carries, given the attributes `attr` it
      was handed: with type attributes on, `type` holds the tag and every
      other attribute is that of `attr`, the names keeping their order, and a
      `type` not yet present goes last; with them off, exactly `attr`. */
  ghost predicate TypedAttrs(opts: Options, a: Attrs, attr: Attrs, tag: string)
  {
    && (opts.attrType ==> Lookup(a, "type") == Some(tag))
    && (opts.attrType ==> forall k | k != "type" :: Lookup(a, k) == Lookup(attr, k))
    && (opts.attrType && Lookup(attr, "type").None? ==> a == attr + [("type", tag)])
    && (opts.attrType && Lookup(attr, "type").Some? ==> Names(a) == Names(attr))
    && (!opts.attrType ==> a == attr)
  }

  /** What a leaf emitter produces for `key`: one element named by the
      sanitised key, holding `text`, with the sanitised attributes typed by
      `tag`; of the state only the validity cache moves. */
  ghost predicate Emits(opts: Options, o: Out, key: string, attr: Attrs, st: State, text: string, tag: string)
  {
    var n := MakeValidXmlName(key, attr, st.cache, opts.parser);
    && o.st == st.(cache := n.cache)
    && exists a :: o.xml == Element(n.name, a, text) && TypedAttrs(opts, a, n.attr, tag)
  }

  /** `convert_kv`: a number or string as one element, its name sanitised
      (again) first. */
  function ConvertKv(key: string, v: Value, opts: Options, attr: Attrs, st: State): (r: Result<Out>)
    requires v.Str? || v.Int? || v.Bool?
    ensures r.Err? <==> opts.cdata && !v.Str?
    ensures r.Err? ==> r.error == NoReplace(XmlType(v))
    ensures r.Ok? ==> Evolves(opts, st, r.value.st)
    ensures r.Ok? ==> Emits(opts, r.value, key, attr, st, LeafText(v, opts.cdata).value, XmlType(v))
  {
    var n := MakeValidXmlName(key, attr, st.cache, opts.parser);
    var text :- LeafText(v, opts.cdata);
    Ok(Out(Element(n.name, WithType(opts, n.attr, v), text), st.(cache := n.cache)))
  }

  /** `convert_bool`: the lowercase `true` or `false` as the element text. */
  function ConvertBool(key: string, b: bool, opts: Options, attr: Attrs, st: State): (r: Out)
    ensures Evolves(opts, st, r.st)
    ensures Emits(opts, r, key, attr, st, LowerBool(b), "bool")
  {
    var n := MakeValidXmlName(key, attr, st.cache, opts.parser);
    Out(Element(n.name, WithType(opts, n.attr, Bool(b)), LowerBool(b)), st.(cache := n.cache))
  }

  /** `convert_none`: an element with no text. */
  function ConvertNone(key: string, opts: Options, attr: Attrs, st: State): (r: Out)
    ensures Evolves(opts, st, r.st)
    ensures Emits(opts, r, key, attr, st, "", "null")
  {
    var n := MakeValidXmlName(key, attr, st.cache, opts.parser);
    Out(Element(n.name, WithType(opts, n.attr, Null), ""), st.(cache := n.cache))
  }

  /** A fresh id for an element whose parent is `parent`, when ids are on. */
  function IdAttrs(opts: Options, parent: string, st: State): (r: Result<(Attrs, State)>)
    ensures r.Ok? ==> Evolves(opts, st, r.value.1)
    ensures r.Ok? && opts.ids ==>
      (&& |r.value.0| == 1 && r.value.0[0].0 == "id"
       && r.value.0[0].1 !in st.registry && r.value.1.registry == st.registry + {r.value.0[0].1}
       && r.value.1.cache == st.cache
       && |r.value.1.draws| < |st.draws|
       && r.value.0[0].1 == MakeId(parent, st.draws[|st.draws| - |r.value.1.draws| - 1])
       && AllCollide(parent, st.registry, st.draws[..|st.draws| - |r.value.1.draws| - 1]))
    ensures r.Err? ==> opts.ids && r.error == IdsExhausted(parent)
    ensures !opts.ids ==> r == Ok(([], st))
  {
    if !opts.ids then Ok(([], st))
    else
      var a :- GetUniqueId(parent, st.registry, st.draws);
      Ok(([("id", a.id)], st.(registry := a.registry, draws := a.draws)))
  }

  /** `convert`: routes a value by its kind. Scalars become one element
      named `item_func(parent)`; containers are walked with `parent` as
      the context. */
  function ConvertValue(v: Value, opts: Options, parent: string, st: State): (r: Result<Out>)
    ensures r.Ok? ==> Evolves(opts, st, r.value.st)
    ensures r.Ok? ==> Convertible(v, opts.cdata, false)
    ensures r.Err? ==> !Convertible(v, opts.cdata, false) || r.error.IdsExhausted?
    ensures r.Err? && !opts.ids ==> !r.error.IdsExhausted?
    ensures r.Err? && !opts.cdata ==> r.error.UnsupportedType? || r.error.IdsExhausted?
    ensures v.Unsupported? ==> r == Err(UnsupportedType(v.typeName, v.repr))
    decreases v, 1
  {
    match v
    case Bool(b) => Ok(ConvertBool(opts.itemFunc.Apply(parent), b, opts, [], st))
    case Null => Ok(ConvertNone(opts.itemFunc.Apply(parent), opts, [], st))
    case Int(_) => ConvertKv(opts.itemFunc.Apply(parent), v, opts, [], st)
    case Str(_) => ConvertKv(opts.itemFunc.Apply(parent), v, opts, [], st)
    case Dict(es) => ConvertDict(es, opts, parent, st)
    case List(xs) => ConvertList(xs, opts, parent, st)
    case Unsupported(t, repr) => Err(UnsupportedType(t, repr))
  }

  /** `convert_dict`: one fragment per entry, in insertion order. */
  function ConvertDict(es: seq<(string, Value)>, opts: Options, parent: string, st: State): (r: Result<Out>)
    ensures r.Ok? ==> Evolves(opts, st, r.value.st)
    ensures r.Ok? ==> EntriesConvertible(es, opts.cdata)
    ensures r.Err? ==> !EntriesConvertible(es, opts.cdata) || r.error.IdsExhausted?
    ensures r.Err? && !opts.ids ==> !r.error.IdsExhausted?
    ensures r.Err? && !opts.cdata ==> r.error.UnsupportedType? || r.error.IdsExhausted?
    decreases es, 0
  {
    if es == [] then Ok(Out("", st))
    else
      assert es[0].1 < es[0];
      var first :- ConvertDictItem(es[0].0, es[0].1, opts, parent, st);
      var rest :- ConvertDict(es[1..], opts, parent, first.st);
      EvolvesTrans(opts, st, first.st, rest.st);
      Ok(Out(first.xml + rest.xml, rest.st))
  }

  /** `convert_dict_item`: one entry. With ids on, an id derived from the
      parent is drawn first; then the key is sanitised and the value routed
      by kind. */
  function ConvertDictItem(key: string, val: Value, opts: Options, parent: string, st: State): (r: Result<Out>)
    ensures r.Ok? ==> Evolves(opts, st, r.value.st)
    ensures r.Ok? ==> Convertible(val, opts.cdata, false)
    ensures r.Err? ==> !Convertible(val, opts.cdata, false) || r.error.IdsExhausted?
    ensures r.Err? && !opts.ids ==> !r.error.IdsExhausted?
    ensures r.Err? && !opts.cdata ==> r.error.UnsupportedType? || r.error.IdsExhausted?
    ensures val.Unsupported? && IdAttrs(opts, parent, st).Ok? ==> r == Err(UnsupportedType(val.typeName, val.repr))
    ensures IdAttrs(opts, parent, st).Err? ==> r == Err(IdsExhausted(parent))
    decreases val, 2
  {
    var (attr, st1) :- IdAttrs(opts, parent, st);
    var n := MakeValidXmlName(key, attr, st1.cache, opts.parser);
    var st2 := st1.(cache := n.cache);
    assert Evolves(opts, st, st2) by { EvolvesTrans(opts, st, st1, st2); }
    match val
    case Dict(_) | List(_) =>
      var r := ConvertNested(val, n.name, opts, n.attr, st2);
      EvolvesThen(opts, st, st2, r);
      r
    case Bool(_) | Int(_) | Str(_) | Null =>
      var r := ConvertScalarEntry(n.name, val, opts, n.attr, st2);
      EvolvesThen(opts, st, st2, r);
      r
    case Unsupported(t, repr) => Err(UnsupportedType(t, repr))
  }

  /** The scalar branches of `convert_dict_item`: a boolean goes to
      `convert_bool`, a number or string to `convert_kv`, `None` to
      `convert_none`. Only a number under CDATA fails. */
  function ConvertScalarEntry(name: string, val: Value, opts: Options, attr: Attrs, st: State): (r: Result<Out>)
    requires val.Bool? || val.Int? || val.Str? || val.Null?
    ensures r.Ok? ==> Evolves(opts, st, r.value.st)
    ensures r.Ok? <==> Convertible(val, opts.cdata, false)
    ensures r.Err? ==> r.error == NoReplace("int")
    ensures val.Bool? ==> r.Ok? && Emits(opts, r.value, name, attr, st, LowerBool(val.b), "bool")
    ensures val.Null? ==> r.Ok? && Emits(opts, r.value, name, attr, st, "", "null")
    ensures r.Ok? && (val.Int? || val.Str?) ==>
      Emits(opts, r.value, name, attr, st, LeafText(val, opts.cdata).value, XmlType(val))
  {
    match val
    case Bool(b) => Ok(ConvertBool(name, b, opts, attr, st))
    case Null => Ok(ConvertNone(name, opts, attr, st))
    case Int(_) => ConvertKv(name, val, opts, attr, st)
    case Str(_) => ConvertKv(name, val, opts, attr, st)
  }

  /** `convert_nested_structure`: a dict or list held by a dict entry. The
      `type` attribute is added, but with the default `item_func` only the
      inner content is emitted and the wrapper and its attributes are
      dropped; a custom `item_func` wraps the content in `<key attrs>`. */
  function ConvertNested(val: Value, key: string, opts: Options, attr: Attrs, st: State): (r: Result<Out>)
    requires val.Dict? || val.List?
    ensures r.Ok? ==> Evolves(opts, st, r.value.st)
    ensures r.Ok? ==> Convertible(val, opts.cdata, false)
    ensures r.Err? ==> !Convertible(val, opts.cdata, false) || r.error.IdsExhausted?
    ensures r.Err? && !opts.ids ==> !r.error.IdsExhausted?
    ensures r.Err? && !opts.cdata ==> r.error.UnsupportedType? || r.error.IdsExhausted?
    decreases val, 0
  {
    match val
    case Dict(es) =>
      assert Convertible(val, opts.cdata, false) == EntriesConvertible(es, opts.cdata);
      var inner :- ConvertDict(es, opts, key, st);
      Ok(Wrapped(opts, key, attr, val, inner))
    case List(xs) =>
      assert Convertible(val, opts.cdata, false) == ItemsConvertible(xs, opts.cdata);
      var inner :- ConvertList(xs, opts, key, st);
      Ok(Wrapped(opts, key, attr, val, inner))
  }

  /** The wrapper `convert_nested_structure` puts around a container's
      content, present only with a custom `item_func`; it carries the
      container's `type` when type attributes are on. */
  function Wrapped(opts: Options, key: string, attr: Attrs, val: Value, inner: Out): (r: Out)
    ensures r.st == inner.st
    ensures opts.itemFunc.Default? ==> r == inner
    ensures opts.itemFunc.Custom? ==>
      exists a :: r.xml == Element(key, a, inner.xml) && TypedAttrs(opts, a, attr, XmlType(val))
  {
    if opts.itemFunc.Custom? then Out(Element(key, WithType(opts, attr, val), inner.xml), inner.st) else inner
  }

  /** `convert_list`: every item is named `item_func(parent)`; with ids on,
      one id is drawn for the list and item `i` gets `{id}_{i+1}`. */
  function ConvertList(xs: seq<Value>, opts: Options, parent: string, st: State): (r: Result<Out>)
    ensures r.Ok? ==> Evolves(opts, st, r.value.st)
    ensures r.Ok? ==> ItemsConvertible(xs, opts.cdata)
    ensures r.Err? ==> !ItemsConvertible(xs, opts.cdata) || r.error.IdsExhausted?
    ensures r.Err? && !opts.ids ==> !r.error.IdsExhausted?
    ensures r.Err? && !opts.cdata ==> r.error.UnsupportedType? || r.error.IdsExhausted?
    decreases xs, 1
  {
    var itemName := opts.itemFunc.Apply(parent);
    var (idAttr, st1) :- IdAttrs(opts, parent, st);
    var listId := if opts.ids then Some(idAttr[0].1) else None;
    var r := ConvertItems(xs, 0, itemName, listId, opts, parent, st1);
    EvolvesThen(opts, st, st1, r);
    r
  }

  /** The loop of `convert_list` from position `i` on. */
  function ConvertItems(xs: seq<Value>, i: nat, itemName: string, listId: Option<string>,
                        opts: Options, parent: string, st: State): (r: Result<Out>)
    ensures r.Ok? ==> Evolves(opts, st, r.value.st)
    ensures r.Ok? ==> ItemsConvertible(xs, opts.cdata)
    ensures r.Err? ==> !ItemsConvertible(xs, opts.cdata) || r.error.IdsExhausted?
    ensures r.Err? && !opts.ids ==> !r.error.IdsExhausted?
    ensures r.Err? && !opts.cdata ==> r.error.UnsupportedType? || r.error.IdsExhausted?
    decreases xs, 0
  {
    if xs == [] then Ok(Out("", st))
    else
      var first :- ConvertListItem(xs[0], i, itemName, listId, opts, parent, st);
      var rest :- ConvertItems(xs[1..], i + 1, itemName, listId, opts, parent, first.st);
      EvolvesTrans(opts, st, first.st, rest.st);
      Ok(Out(first.xml + rest.xml, rest.st))
  }

  /** The attributes of list item `i`: its id when the list has one. */
  function ItemAttr(listId: Option<string>, i: nat): (r: Attrs)
    ensures listId.None? <==> r == []
    ensures listId.Some? ==> Lookup(r, "id") == Some(ItemId(listId.value, i)) && Names(r) == ["id"]
  {
    if listId.Some? then [("id", ItemId(listId.value, i))] else []
  }

  /** One list item. Numbers, strings and booleans (a boolean is a number in
      Python) go through `convert_kv`; a dict is wrapped in an element named
      `item_name`, unsanitised and without a type, and its entries are
      converted with `parent`, not `item_name`, as their context; a nested
      list gets a `type="list"` wrapper with the default `item_func` and is
      spliced in bare with a custom one. */
  function ConvertListItem(item: Value, i: nat, itemName: string, listId: Option<string>,
                           opts: Options, parent: string, st: State): (r: Result<Out>)
    ensures r.Ok? ==> Evolves(opts, st, r.value.st)
    ensures r.Ok? ==> Convertible(item, opts.cdata, true)
    ensures r.Err? ==> !Convertible(item, opts.cdata, true) || r.error.IdsExhausted?
    ensures r.Err? && !opts.ids ==> !r.error.IdsExhausted?
    ensures r.Err? && !opts.cdata ==> r.error.UnsupportedType? || r.error.IdsExhausted?
    ensures item.Unsupported? ==> r == Err(UnsupportedType(item.typeName, item.repr))
    decreases item, 2
  {
    var attr := ItemAttr(listId, i);
    match item
    case Int(_) => ConvertKv(itemName, item, opts, attr, st)
    case Str(_) => ConvertKv(itemName, item, opts, attr, st)
    case Bool(_) => ConvertKv(itemName, item, opts, attr, st)
    case Dict(es) =>
      var inner :- ConvertDict(es, opts, parent, st);
      Ok(Out(Element(itemName, attr, inner.xml), inner.st))
    case List(ys) =>
      var typeAttr := if opts.attrType then " type=\"list\"" else "";
      var inner :- ConvertList(ys, opts, itemName, st);
      if opts.itemFunc.Default? then
        Ok(Out("<" + itemName + AttrString(attr) + typeAttr + ">" + inner.xml + "</" + itemName + ">", inner.st))
      else Ok(inner)
    case Null => Ok(ConvertNone(itemName, opts, attr, st))
    case Unsupported(t, repr) => Err(UnsupportedType(t, repr))
  }

  /** The document-level arguments of `dicttoxml`. */
  datatype Document = Document(
    root: bool,
    customRoot: string,
    xmlDeclaration: bool,
    includeEncoding: bool,
    encoding: string)

  /** The XML declaration, section 2.8 of XML 1.0. */
  function Declaration(doc: Document): (r: string)
    ensures StartsWith(r, "<?xml version=\"1.0\" ") && EndsWith(r, " ?>")
    ensures doc.includeEncoding <==> StartsWith(r, "<?xml version=\"1.0\" encoding=\"")
    ensures doc.includeEncoding ==> EndsWith(r, "\"" + doc.encoding + "\" ?>")
    ensures doc.includeEncoding ==> r == "<?xml version=\"1.0\" encoding=\"" + doc.encoding + "\" ?>"
    ensures !doc.includeEncoding ==> r == "<?xml version=\"1.0\" ?>"
  {
    if doc.includeEncoding then "<?xml version=\"1.0\" encoding=\"" + doc.encoding + "\" ?>"
    else "<?xml version=\"1.0\" ?>"
  }

  /** The root element and the optional declaration around a body. */
  function Frame(doc: Document, body: string): (r: string)
    ensures doc.root && doc.xmlDeclaration ==> StartsWith(r, Declaration(doc))
    ensures doc.root && !doc.xmlDeclaration ==> StartsWith(r, "<" + doc.customRoot + ">")
    ensures doc.root ==> EndsWith(r, "<" + doc.customRoot + ">" + body + "</" + doc.customRoot + ">")
    ensures doc.root ==> EndsWith(r, "</" + doc.customRoot + ">")
    ensures !doc.root ==> r == body
  {
    if doc.root then
      var decl := if doc.xmlDeclaration then Declaration(doc) else "";
      var open := "<" + doc.customRoot + ">";
      var close := "</" + doc.customRoot + ">";
      var element := open + body + "</" + doc.customRoot + ">";
      var r := decl + element;
      assert r[|r| - |element|..] == element;
      assert r[..|decl|] == decl;
      assert element == (open + body) + close;
      assert r[|r| - |close|..] == close;
      assert element[..|open|] == open;
      r
    else body
  }

  /** `dicttoxml`: with `root`, the optional declaration, then the body
      converted with `custom_root` as parent inside a `custom_root`
      element; without it, the bare body converted with parent `''`.
      Without ids it succeeds exactly when the value is convertible. */
  function DictToXml(obj: Value, doc: Document, opts: Options, st: State): (r: Result<Out>)
    ensures r.Ok? ==> Evolves(opts, st, r.value.st)
    ensures !opts.ids ==> (r.Ok? <==> Convertible(obj, opts.cdata, false))
    ensures r.Err? ==> !Convertible(obj, opts.cdata, false) || r.error.IdsExhausted?
    ensures r.Ok? && doc.root && doc.xmlDeclaration ==> StartsWith(r.value.xml, Declaration(doc))
    ensures r.Ok? && doc.root ==> EndsWith(r.value.xml, "</" + doc.customRoot + ">")
    ensures r.Err? && !opts.cdata ==> r.error.UnsupportedType? || r.error.IdsExhausted?
    ensures obj.Unsupported? ==> r == Err(UnsupportedType(obj.typeName, obj.repr))
    ensures !doc.root ==> r == ConvertValue(obj, opts, "", st)
    ensures doc.root ==>
      var b := ConvertValue(obj, opts, doc.customRoot, st);
      && (b.Err? ==> r == b)
      && (b.Ok? ==> r == Ok(Out(Prolog(doc) + Element(doc.customRoot, [], b.value.xml), b.value.st)))
  {
    var body :- ConvertValue(obj, opts, if doc.root then doc.customRoot else "", st);
    if doc.root then FrameRooted(doc, body.xml); Ok(Out(Frame(doc, body.xml), body.st))
    else Ok(Out(Frame(doc, body.xml), body.st))
  }

  /** The declaration when one is asked for, else nothing. */
  function Prolog(doc: Document): string
  {
    if doc.xmlDeclaration then Declaration(doc) else ""
  }

  /** With a root, the optional declaration and then the root element
      around the body. */
  lemma FrameRooted(doc: Document, body: string)
    requires doc.root
    ensures Frame(doc, body) == Prolog(doc) + Element(doc.customRoot, [], body)
  {
    BareElement(doc.customRoot, body);
  }

  /** An element without attributes. */
  lemma BareElement(name: string, body: string)
    ensures Element(name, [], body) == "<" + name + ">" + body + "</" + name + ">"
  {
    assert AttrString([]) == "";
    assert "<" + name + AttrString([]) == "<" + name;
  }
}

=== FILE: convert_props.dfy ===
/** Properties of the conversion engine that relate several of its
    operations: how mappings split into per-entry fragments, where the
    wrapper of a nested container goes, how booleans render in each
    context, and that leaf names are effectively sanitised once. */
module ConvertProps {
  import opened Values
  import opened Text
  import opened Escape
  import opened Attrs
  import opened Sanitiser
  import opened Convert

  /** One entry, then the rest. */
  lemma DictUnfold(es: seq<(string, Value)>, opts: Options, parent: string, st: State)
    requires es != []
    ensures var first := ConvertDictItem(es[0].0, es[0].1, opts, parent, st);
      var r := ConvertDict(es, opts, parent, st);
      && (first.Err? ==> r == first)
      && (first.Ok? ==>
            var rest := ConvertDict(es[1..], opts, parent, first.value.st);
            && (rest.Err? ==> r == rest)
            && (rest.Ok? ==> r == Ok(Out(first.value.xml + rest.value.xml, rest.value.st))))
  {
  }

  /** Converting `es1 + es2` converts `es1`, then `es2` from the state `es1`
      left, and concatenates: one fragment per entry, in insertion order,
      and the first failing entry ends the conversion. */
  lemma {:induction false} DictConcat(es1: seq<(string, Value)>, es2: seq<(string, Value)>,
                                      opts: Options, parent: string, st: State)
    ensures var r1 := ConvertDict(es1, opts, parent, st);
      var r := ConvertDict(es1 + es2, opts, parent, st);
      && (r1.Err? ==> r == r1)
      && (r1.Ok? ==>
            var r2 := ConvertDict(es2, opts, parent, r1.value.st);
            && (r2.Err? ==> r == r2)
            && (r2.Ok? ==> r == Ok(Out(r1.value.xml + r2.value.xml, r2.value.st))))
    decreases |es1|
  {
    if es1 == [] {
      assert es1 + es2 == es2;
      assert ConvertDict(es1, opts, parent, st) == Ok(Out("", st));
      var r2 := ConvertDict(es2, opts, parent, st);
      if r2.Ok? {
        assert "" + r2.value.xml == r2.value.xml;
      }
    } else {
      var es := es1 + es2;
      assert es[0] == es1[0];
      assert es[1..] == es1[1..] + es2;
      DictUnfold(es, opts, parent, st);
      DictUnfold(es1, opts, parent, st);
      var first := ConvertDictItem(es1[0].0, es1[0].1, opts, parent, st);
      if first.Ok? {
        var s1 := first.value.st;
        DictConcat(es1[1..], es2, opts, parent, s1);
        assert ConvertDict(es[1..], opts, parent, s1) == ConvertDict(es1[1..] + es2, opts, parent, s1);
        ConcatTail(first.value, ConvertDict(es1[1..], opts, parent, s1), es2, opts, parent);
      }
    }
  }

  /** The bookkeeping step of `DictConcat`. */
  lemma ConcatTail(first: Out, rest1: Result<Out>, es2: seq<(string, Value)>, opts: Options, parent: string)
    ensures rest1.Ok? ==>
      var r2 := ConvertDict(es2, opts, parent, rest1.value.st);
      r2.Ok? ==> first.xml + (rest1.value.xml + r2.value.xml) == (first.xml + rest1.value.xml) + r2.value.xml
  {
  }

  /** One list item, then the rest, numbered from the next position. */
  lemma ItemsUnfold(xs: seq<Value>, i: nat, itemName: string, listId: Option<string>,
                    opts: Options, parent: string, st: State)
    requires xs != []
    ensures var first := ConvertListItem(xs[0], i, itemName, listId, opts, parent, st);
      var r := ConvertItems(xs, i, itemName, listId, opts, parent, st);
      && (first.Err? ==> r == first)
      && (first.Ok? ==>
            var rest := ConvertItems(xs[1..], i + 1, itemName, listId, opts, parent, first.value.st);
            && (rest.Err? ==> r == rest)
            && (rest.Ok? ==> r == Ok(Out(first.value.xml + rest.value.xml, rest.value.st))))
  {
  }

  /** Converting the items `xs1 + xs2` from position `i` converts `xs1`,
      then `xs2` from position `j`, the one after `xs1`'s last, and
      concatenates: one fragment per item, in list order, each numbered by
      its own position. */
  lemma {:induction false} ItemsConcat(xs1: seq<Value>, xs2: seq<Value>, i: nat, j: nat, itemName: string,
                                       listId: Option<string>, opts: Options, parent: string, st: State)
    requires j == i + |xs1|
    ensures var r1 := ConvertItems(xs1, i, itemName, listId, opts, parent, st);
      var r := ConvertItems(xs1 + xs2, i, itemName, listId, opts, parent, st);
      && (r1.Err? ==> r == r1)
      && (r1.Ok? ==>
            var r2 := ConvertItems(xs2, j, itemName, listId, opts, parent, r1.value.st);
            && (r2.Err? ==> r == r2)
            && (r2.Ok? ==> r == Ok(Out(r1.value.xml + r2.value.xml, r2.value.st))))
    decreases |xs1|
  {
    if xs1 == [] {
      assert xs1 + xs2 == xs2;
      assert ConvertItems(xs1, i, itemName, listId, opts, parent, st) == Ok(Out("", st));
      var r2 := ConvertItems(xs2, i, itemName, listId, opts, parent, st);
      if r2.Ok? {
        assert "" + r2.value.xml == r2.value.xml;
      }
    } else {
      var xs := xs1 + xs2;
      assert xs[0] == xs1[0];
      assert xs[1..] == xs1[1..] + xs2;
      ItemsUnfold(xs, i, itemName, listId, opts, parent, st);
      ItemsUnfold(xs1, i, itemName, listId, opts, parent, st);
      var first := ConvertListItem(xs1[0], i, itemName, listId, opts, parent, st);
      if first.Ok? {
        var s1 := first.value.st;
        ItemsConcat(xs1[1..], xs2, i + 1, j, itemName, listId, opts, parent, s1);
        assert ConvertItems(xs[1..], i + 1, itemName, listId, opts, parent, s1)
            == ConvertItems(xs1[1..] + xs2, i + 1, itemName, listId, opts, parent, s1);
        ItemsTail(first.value, ConvertItems(xs1[1..], i + 1, itemName, listId, opts, parent, s1),
                  xs2, j, itemName, listId, opts, parent);
      }
    }
  }

  /** The bookkeeping step of `ItemsConcat`. */
  lemma ItemsTail(first: Out, rest1: Result<Out>, xs2: seq<Value>, j: nat, itemName: string,
                  listId: Option<string>, opts: Options, parent: string)
    ensures rest1.Ok? ==>
      var r2 := ConvertItems(xs2, j, itemName, listId, opts, parent, rest1.value.st);
      r2.Ok? ==> first.xml + (rest1.value.xml + r2.value.xml) == (first.xml + rest1.value.xml) + r2.value.xml
  {
  }

  /** At top level a scalar is one element named `item_func(parent)`,
      sanitised, with no attributes but its type: a boolean holds lowercase
      `true`/`false`, `None` nothing, a number or string its leaf text. Only
      a number under CDATA fails. */
  lemma TopLevelScalarElement(v: Value, opts: Options, parent: string, st: State)
    requires v.Bool? || v.Int? || v.Str? || v.Null?
    ensures var r := ConvertValue(v, opts, parent, st);
      var key := opts.itemFunc.Apply(parent);
      && (r.Err? <==> opts.cdata && v.Int?)
      && (v.Bool? ==> r.Ok? && Emits(opts, r.value, key, [], st, LowerBool(v.b), "bool"))
      && (v.Null? ==> r.Ok? && Emits(opts, r.value, key, [], st, "", "null"))
      && (r.Ok? && (v.Int? || v.Str?) ==>
            Emits(opts, r.value, key, [], st, LeafText(v, opts.cdata).value, XmlType(v)))
  {
  }

  /** At top level a container is walked with the same parent: no element
      of its own, no sanitisation, no id drawn before the walk. */
  lemma TopLevelContainer(v: Value, opts: Options, parent: string, st: State)
    ensures v.Dict? ==> ConvertValue(v, opts, parent, st) == ConvertDict(v.entries, opts, parent, st)
    ensures v.List? ==> ConvertValue(v, opts, parent, st) == ConvertList(v.items, opts, parent, st)
  {
  }

  /** A scalar dict value: after the optional id and the sanitisation of
      the key, the value goes to its leaf emitter. */
  lemma DictItemScalar(key: string, val: Value, opts: Options, parent: string, st: State)
    requires val.Bool? || val.Int? || val.Str? || val.Null?
    ensures var ia := IdAttrs(opts, parent, st);
      var r := ConvertDictItem(key, val, opts, parent, st);
      && (ia.Err? ==> r.Err?)
      && (ia.Ok? ==>
            var n := MakeValidXmlName(key, ia.value.0, ia.value.1.cache, opts.parser);
            r == ConvertScalarEntry(n.name, val, opts, n.attr, ia.value.1.(cache := n.cache)))
  {
  }

  /** As a dict value a boolean renders as lowercase `true`/`false`,
      tagged `bool`, in the element the leaf emitter names by sanitising
      the already sanitised key once more; it fails only when the id draw
      does. */
  lemma DictBoolIsLowercase(key: string, b: bool, opts: Options, parent: string, st: State)
    ensures var ia := IdAttrs(opts, parent, st);
      var r := ConvertDictItem(key, Bool(b), opts, parent, st);
      && (ia.Err? ==> r == Err(IdsExhausted(parent)))
      && (ia.Ok? ==>
            var n := MakeValidXmlName(key, ia.value.0, ia.value.1.cache, opts.parser);
            r.Ok? && Emits(opts, r.value, n.name, n.attr, ia.value.1.(cache := n.cache), LowerBool(b), "bool"))
  {
    DictItemScalar(key, Bool(b), opts, parent, st);
  }

  /** With a failed id draw a list fails for `parent`; otherwise its items
      are named `item_func(parent)`, numbered from 0, and carry ids derived
      from the id drawn for the list. */
  lemma ListItemsFromParent(xs: seq<Value>, opts: Options, parent: string, st: State)
    ensures var ia := IdAttrs(opts, parent, st);
      var r := ConvertList(xs, opts, parent, st);
      && (ia.Err? ==> r == Err(IdsExhausted(parent)))
      && (ia.Ok? ==>
            var listId := if opts.ids then Some(ia.value.0[0].1) else None;
            r == ConvertItems(xs, 0, opts.itemFunc.Apply(parent), listId, opts, parent, ia.value.1))
  {
  }

  /** A number, string or boolean in a list goes through `convert_kv` with
      the item's id: it fails exactly under CDATA for a non-string, and
      otherwise is the element named by the sanitised item name, holding
      the leaf text, typed, and carrying the item's id when the list has
      one. */
  lemma ScalarItemElement(item: Value, i: nat, itemName: string, listId: Option<string>,
                          opts: Options, parent: string, st: State)
    requires item.Int? || item.Str? || item.Bool?
    ensures var r := ConvertListItem(item, i, itemName, listId, opts, parent, st);
      var n := MakeValidXmlName(itemName, ItemAttr(listId, i), st.cache, opts.parser);
      && (r.Err? <==> opts.cdata && !item.Str?)
      && (r.Err? ==> r.error == NoReplace(XmlType(item)))
      && (r.Ok? ==>
            && r.value.st == st.(cache := n.cache)
            && exists a :: && r.value.xml == Element(n.name, a, LeafText(item, opts.cdata).value)
                           && TypedAttrs(opts, a, n.attr, XmlType(item))
                           && (listId.Some? ==> Lookup(a, "id") == Some(Ids.ItemId(listId.value, i))))
  {
    var attr := ItemAttr(listId, i);
    var n := MakeValidXmlName(itemName, attr, st.cache, opts.parser);
    var r := ConvertListItem(item, i, itemName, listId, opts, parent, st);
    assert r == ConvertKv(itemName, item, opts, attr, st);
    if r.Ok? {
      var a := WithType(opts, n.attr, item);
      assert r.value.xml == Element(n.name, a, LeafText(item, opts.cdata).value);
      if listId.Some? {
        IdSurvivesSanitiser(itemName, Ids.ItemId(listId.value, i), st.cache, opts.parser);
      }
    }
  }

  /** `None` in a list is an empty element named by the sanitised item
      name, typed `null`, carrying the item's id when the list has one. */
  lemma NullItemElement(i: nat, itemName: string, listId: Option<string>,
                        opts: Options, parent: string, st: State)
    ensures var r := ConvertListItem(Null, i, itemName, listId, opts, parent, st);
      var n := MakeValidXmlName(itemName, ItemAttr(listId, i), st.cache, opts.parser);
      && r.Ok?
      && r.value.st == st.(cache := n.cache)
      && exists a :: && r.value.xml == Element(n.name, a, "")
                     && TypedAttrs(opts, a, n.attr, "null")
                     && (listId.Some? ==> Lookup(a, "id") == Some(Ids.ItemId(listId.value, i)))
  {
    var attr := ItemAttr(listId, i);
    var n := MakeValidXmlName(itemName, attr, st.cache, opts.parser);
    var a := WithType(opts, n.attr, Null);
    assert ConvertListItem(Null, i, itemName, listId, opts, parent, st).value.xml == Element(n.name, a, "");
    if listId.Some? {
      IdSurvivesSanitiser(itemName, Ids.ItemId(listId.value, i), st.cache, opts.parser);
    }
  }

  /** In a list a boolean goes the way of numbers: without CDATA it renders
      as Python's `True`/`False`, still tagged `bool`; with CDATA it fails
      at `.replace`. */
  lemma ListBoolIsCapitalised(b: bool, i: nat, itemName: string, listId: Option<string>,
                              opts: Options, parent: string, st: State)
    ensures var r := ConvertListItem(Bool(b), i, itemName, listId, opts, parent, st);
      var n := MakeValidXmlName(itemName, ItemAttr(listId, i), st.cache, opts.parser);
      && (opts.cdata ==> r == Err(NoReplace("bool")))
      && (!opts.cdata ==>
            && r.Ok?
            && exists a :: && r.value.xml == Element(n.name, a, PyBool(b))
                           && TypedAttrs(opts, a, n.attr, "bool")
                           && (listId.Some? ==> Lookup(a, "id") == Some(Ids.ItemId(listId.value, i))))
  {
    ScalarItemElement(Bool(b), i, itemName, listId, opts, parent, st);
  }

  /** A container dict value: after the optional id and the sanitisation
      of the key, the value goes to `convert_nested_structure`. */
  lemma DictItemNested(key: string, val: Value, opts: Options, parent: string, st: State)
    requires val.Dict? || val.List?
    ensures var ia := IdAttrs(opts, parent, st);
      ia.Ok? ==>
        var n := MakeValidXmlName(key, ia.value.0, ia.value.1.cache, opts.parser);
        ConvertDictItem(key, val, opts, parent, st) == ConvertNested(val, n.name, opts, n.attr, ia.value.1.(cache := n.cache))
  {
  }

  /** `convert_nested_structure` converts the container with the key as
      parent and wraps the result. */
  lemma NestedUnfold(val: Value, key: string, opts: Options, attr: Attrs, st: State)
    requires val.Dict? || val.List?
    ensures var inner := if val.Dict? then ConvertDict(val.entries, opts, key, st) else ConvertList(val.items, opts, key, st);
      var r := ConvertNested(val, key, opts, attr, st);
      && (inner.Err? ==> r == inner)
      && (inner.Ok? ==> r == Ok(Wrapped(opts, key, attr, val, inner.value)))
  {
  }

  /** With the default `item_func` a dict held by a dict entry leaves no
      element of its own: after the optional id is drawn, the entry's output
      is the inner dict converted with the sanitised key as parent, and the
      id and the key's attributes are dropped. */
  lemma NestedDictDefaultIsBare(key: string, es: seq<(string, Value)>, opts: Options, parent: string, st: State)
    requires opts.itemFunc.Default?
    ensures var ia := IdAttrs(opts, parent, st);
      ia.Ok? ==>
        var n := MakeValidXmlName(key, ia.value.0, ia.value.1.cache, opts.parser);
        ConvertDictItem(key, Dict(es), opts, parent, st) == ConvertDict(es, opts, n.name, ia.value.1.(cache := n.cache))
  {
    var ia := IdAttrs(opts, parent, st);
    if ia.Ok? {
      var n := MakeValidXmlName(key, ia.value.0, ia.value.1.cache, opts.parser);
      var st2 := ia.value.1.(cache := n.cache);
      DictItemNested(key, Dict(es), opts, parent, st);
      NestedUnfold(Dict(es), n.name, opts, n.attr, st2);
    }
  }

  /** With the default `item_func` a list held by a dict entry likewise
      leaves no element of its own. */
  lemma NestedListDefaultIsBare(key: string, xs: seq<Value>, opts: Options, parent: string, st: State)
    requires opts.itemFunc.Default?
    ensures var ia := IdAttrs(opts, parent, st);
      ia.Ok? ==>
        var n := MakeValidXmlName(key, ia.value.0, ia.value.1.cache, opts.parser);
        ConvertDictItem(key, List(xs), opts, parent, st) == ConvertList(xs, opts, n.name, ia.value.1.(cache := n.cache))
  {
    var ia := IdAttrs(opts, parent, st);
    if ia.Ok? {
      var n := MakeValidXmlName(key, ia.value.0, ia.value.1.cache, opts.parser);
      var st2 := ia.value.1.(cache := n.cache);
      DictItemNested(key, List(xs), opts, parent, st);
      NestedUnfold(List(xs), n.name, opts, n.attr, st2);
    }
  }

  /** With a custom `item_func` a dict held by a dict entry is wrapped in an
      element named by the sanitised key, carrying the entry's attributes
      (the id among them) and `type="dict"` when type attributes are on. */
  lemma NestedDictCustomIsWrapped(key: string, es: seq<(string, Value)>, opts: Options, parent: string, st: State)
    requires opts.itemFunc.Custom?
    ensures var ia := IdAttrs(opts, parent, st);
      ia.Ok? ==>
        var n := MakeValidXmlName(key, ia.value.0, ia.value.1.cache, opts.parser);
        var inner := ConvertDict(es, opts, n.name, ia.value.1.(cache := n.cache));
        var r := ConvertDictItem(key, Dict(es), opts, parent, st);
        && (inner.Err? ==> r == inner)
        && (inner.Ok? ==>
              && r.Ok? && r.value.st == inner.value.st
              && exists a :: r.value.xml == Element(n.name, a, inner.value.xml) && TypedAttrs(opts, a, n.attr, "dict"))
  {
    var ia := IdAttrs(opts, parent, st);
    if ia.Ok? {
      var n := MakeValidXmlName(key, ia.value.0, ia.value.1.cache, opts.parser);
      var st2 := ia.value.1.(cache := n.cache);
      DictItemNested(key, Dict(es), opts, parent, st);
      NestedUnfold(Dict(es), n.name, opts, n.attr, st2);
      assert XmlType(Dict(es)) == "dict";
    }
  }

  /** With a custom `item_func` a list held by a dict entry is wrapped the
      same way, carrying `type="list"` when type attributes are on. */
  lemma NestedListCustomIsWrapped(key: string, xs: seq<Value>, opts: Options, parent: string, st: State)
    requires opts.itemFunc.Custom?
    ensures var ia := IdAttrs(opts, parent, st);
      ia.Ok? ==>
        var n := MakeValidXmlName(key, ia.value.0, ia.value.1.cache, opts.parser);
        var inner := ConvertList(xs, opts, n.name, ia.value.1.(cache := n.cache));
        var r := ConvertDictItem(key, List(xs), opts, parent, st);
        && (inner.Err? ==> r == inner)
        && (inner.Ok? ==>
              && r.Ok? && r.value.st == inner.value.st
              && exists a :: r.value.xml == Element(n.name, a, inner.value.xml) && TypedAttrs(opts, a, n.attr, "list"))
  {
    var ia := IdAttrs(opts, parent, st);
    if ia.Ok? {
      var n := MakeValidXmlName(key, ia.value.0, ia.value.1.cache, opts.parser);
      var st2 := ia.value.1.(cache := n.cache);
      DictItemNested(key, List(xs), opts, parent, st);
      NestedUnfold(List(xs), n.name, opts, n.attr, st2);
      assert XmlType(List(xs)) == "list";
    }
  }

  /** A dict inside a list is wrapped in an element named by the item name,
      unsanitised and without a `type`, carrying the item's id when ids are
      on; its entries are converted with the list's `parent`, not with the
      item name, as their context. */
  lemma DictInListWrapped(es: seq<(string, Value)>, i: nat, itemName: string, listId: Option<string>,
                          opts: Options, parent: string, st: State)
    ensures var attr := ItemAttr(listId, i);
      var inner := ConvertDict(es, opts, parent, st);
      var r := ConvertListItem(Dict(es), i, itemName, listId, opts, parent, st);
      && (inner.Err? ==> r == inner)
      && (inner.Ok? ==> r == Ok(Out(Element(itemName, attr, inner.value.xml), inner.value.st)))
  {
  }

  /** In a list, with the default `item_func`, a list item is wrapped in an
      element named by the item name, carrying the item's id when ids are on
      and then `type="list"` when type attributes are on: the literal the
      source writes after the attribute string is a `type` attribute added
      last. */
  lemma NestedListInListWrapper(ys: seq<Value>, i: nat, itemName: string, listId: Option<string>,
                                opts: Options, parent: string, st: State)
    requires opts.itemFunc.Default?
    ensures var attr := ItemAttr(listId, i);
      var wrapperAttr := if opts.attrType then attr + [("type", "list")] else attr;
      var inner := ConvertList(ys, opts, itemName, st);
      var r := ConvertListItem(List(ys), i, itemName, listId, opts, parent, st);
      && (inner.Err? ==> r == inner)
      && (inner.Ok? ==> r == Ok(Out(Element(itemName, wrapperAttr, inner.value.xml), inner.value.st)))
  {
    var attr := ItemAttr(listId, i);
    var inner := ConvertList(ys, opts, itemName, st);
    if inner.Ok? {
      var x := inner.value.xml;
      var typeAttr := if opts.attrType then " type=\"list\"" else "";
      var lhs := "<" + itemName + AttrString(attr) + typeAttr + ">" + x + "</" + itemName + ">";
      assert ConvertListItem(List(ys), i, itemName, listId, opts, parent, st) == Ok(Out(lhs, inner.value.st));
      if opts.attrType {
        ListWrapperText(itemName, attr, x);
      } else {
        assert "<" + itemName + AttrString(attr) + typeAttr == "<" + itemName + AttrString(attr);
      }
    }
  }

  /** The text of the wrapper: the literal ` type="list"` written after the
      attribute string. */
  lemma ListWrapperText(name: string, attr: Attrs, x: string)
    ensures "<" + name + AttrString(attr) + " type=\"list\"" + ">" + x + "</" + name + ">"
         == Element(name, attr + [("type", "list")], x)
  {
    TypeListPart(attr);
    WrapAssoc(name, AttrString(attr), " type=\"list\"", x);
  }

  /** Adding a `type` attribute holding `list` last appends ` type="list"`. */
  lemma TypeListPart(attr: Attrs)
    ensures AttrString(attr + [("type", "list")]) == AttrString(attr) + " type=\"list\""
  {
    var kv := ("type", "list");
    AttrStringAppend(attr, kv);
    TypeListText();
    var a0 := AttrString(attr);
    assert a0 + " " + Part(kv) == a0 + (" " + Part(kv));
  }

  lemma TypeListText()
    ensures " " + Part(("type", "list")) == " type=\"list\""
  {
  }

  lemma WrapAssoc(name: string, a: string, t: string, x: string)
    ensures "<" + name + a + t + ">" + x + "</" + name + ">" == "<" + name + (a + t) + ">" + x + "</" + name + ">"
  {
  }

  /** With a custom `item_func` a list inside a list is spliced in: no
      wrapper element. */
  lemma NestedListInListCustomIsSpliced(ys: seq<Value>, i: nat, itemName: string, listId: Option<string>,
                                        opts: Options, parent: string, st: State)
    requires opts.itemFunc.Custom?
    ensures ConvertListItem(List(ys), i, itemName, listId, opts, parent, st) == ConvertList(ys, opts, itemName, st)
  {
  }

  /** The leaf emitters sanitise a dict entry's name a second time; when
      the parser accepts every pattern match that changes nothing, so a
      string entry is the element named by the first sanitisation, with the
      escaped text, and the id drawn for it is among its attributes. */
  lemma StringEntrySanitisedOnce(key: string, s: string, opts: Options, parent: string, st: State)
    requires !opts.cdata
    requires CacheSound(opts.parser, st.cache) && PatternAdmitted(opts.parser)
    ensures var ia := IdAttrs(opts, parent, st);
      ia.Ok? ==>
        var n := MakeValidXmlName(key, ia.value.0, ia.value.1.cache, opts.parser);
        var r := ConvertDictItem(key, Str(s), opts, parent, st);
        && r.Ok?
        && exists a :: && r.value.xml == Element(n.name, a, EscapeXml(s))
                       && TypedAttrs(opts, a, n.attr, "str")
                       && (opts.ids ==> Lookup(a, "id") == Some(ia.value.0[0].1))
  {
    DictItemScalar(key, Str(s), opts, parent, st);
    var ia := IdAttrs(opts, parent, st);
    if ia.Ok? {
      var (attr, st1) := ia.value;
      assert st1.cache == st.cache;
      SanitiseTwiceIsNoOp(key, attr, attr, st1.cache, opts.parser);
      var n := MakeValidXmlName(key, attr, st1.cache, opts.parser);
      var st2 := st1.(cache := n.cache);
      SanitiseKeepsPatternNames(n.name, n.attr, n.cache, opts.parser);
      assert ConvertScalarEntry(n.name, Str(s), opts, n.attr, st2) == ConvertKv(n.name, Str(s), opts, n.attr, st2);
      var a := WithType(opts, n.attr, Str(s));
      assert ConvertKv(n.name, Str(s), opts, n.attr, st2).value.xml == Element(n.name, a, EscapeXml(s));
      if opts.ids {
        IdSurvivesSanitiser(key, attr[0].1, st1.cache, opts.parser);
        assert attr == [("id", attr[0].1)];
      }
    }
  }

  /** The `id` attribute handed to the sanitiser comes out unchanged. */
  lemma IdSurvivesSanitiser(key: string, id: string, cache: map<string, bool>, parser: string -> bool)
    ensures Lookup(MakeValidXmlName(key, [("id", id)], cache, parser).attr, "id") == Some(id)
  {
    assert Lookup([("id", id)], "id") == Some(id);
  }

  /** With the default `item_func` the items of any list are named after
      the list's parent, not `item`. */
  lemma DefaultItemNamedAfterParent(xs: seq<Value>, opts: Options, parent: string, st: State)
    requires opts.itemFunc.Default?
    ensures var ia := IdAttrs(opts, parent, st);
      ia.Ok? ==>
        var listId := if opts.ids then Some(ia.value.0[0].1) else None;
        ConvertList(xs, opts, parent, st) == ConvertItems(xs, 0, parent, listId, opts, parent, ia.value.1)
  {
    ListItemsFromParent(xs, opts, parent, st);
  }

  /** An empty mapping converts to nothing. */
  lemma EmptyDictIsEmpty(opts: Options, parent: string, st: State)
    ensures ConvertValue(Dict([]), opts, parent, st) == Ok(Out("", st))
  {
  }

  /** So an empty mapping under the root is an empty root element. */
  lemma EmptyDictDocument(doc: Document, opts: Options, st: State)
    requires doc.root
    ensures var r := DictToXml(Dict([]), doc, opts, st);
      r.Ok? && r.value.xml == Prolog(doc) + Element(doc.customRoot, [], "")
  {
    EmptyDictIsEmpty(opts, doc.customRoot, st);
    assert DictToXml(Dict([]), doc, opts, st) == Ok(Out(Frame(doc, ""), st));
    FrameRooted(doc, "");
  }
}

=== FILE: escape.dfy ===
/** `escape_xml`: the five predefined entities of section 4.6 of XML 1.0. */
module Escape {
  import opened Text

  /** The characters that must not appear raw in escaped text. */
  predicate Special(c: char)
  {
    c == '&' || c == '"' || c == '\'' || c == '<' || c == '>'
  }

  /** No raw `"`, `'`, `<` or `>` in `r`. */
  predicate NoRawMarkup(r: string)
  {
    forall i | 0 <= i < |r| :: r[i] != '"' && r[i] != '\'' && r[i] != '<' && r[i] != '>'
  }

  /** Every `&` in `r` opens one of the five entities. */
  predicate AmpersandsOpenEntities(r: string)
  {
    forall i | 0 <= i < |r| && r[i] == '&' :: StartsWithEntity(r[i..])
  }

  /** What a single character becomes. */
  function EscapeChar(c: char): string
  {
    match c
    case '&' => "&amp;"
    case '"' => "&quot;"
    case '\'' => "&apos;"
    case '<' => "&lt;"
    case '>' => "&gt;"
    case _ => [c]
  }

  /** Reference definition: escape each character on its own. */
  function EscapeEach(s: string): string
  {
    if s == [] then [] else EscapeChar(s[0]) + EscapeEach(s[1..])
  }

  /** The five `str.replace` passes of `escape_xml`, in source order. */
  function Passes(s: string): string
  {
    var s1 := Replace(s, "&", "&amp;");
    var s2 := Replace(s1, "\"", "&quot;");
    var s3 := Replace(s2, "'", "&apos;");
    var s4 := Replace(s3, "<", "&lt;");
    Replace(s4, ">", "&gt;")
  }

  /** `escape_xml` on a string. Because `&` is replaced first, no entity
      introduced by a later pass is escaped again: the result is the
      per-character escape, has no raw `"`, `'`, `<` or `>`, every `&` in it
      opens one of the five entities, and unescaping gives `s` back. */
  function EscapeXml(s: string): (r: string)
    ensures r == EscapeEach(s)
    ensures NoRawMarkup(r)
    ensures AmpersandsOpenEntities(r)
    ensures Unescape(r) == s
    ensures (forall i | 0 <= i < |s| :: !Special(s[i])) ==> r == s
  {
    PassesArePerChar(s);
    EscapeEachNoRaw(s);
    EscapeEachEntities(s);
    UnescapeEscapeEach(s);
    EscapeEachIdentity(s);
    Passes(s)
  }

  /** One step of a one-character `replace`. */
  lemma ReplaceCharUnfold(s: string, c: char, rep: string)
    requires s != []
    ensures Replace(s, [c], rep) == (if s[0] == c then rep else [s[0]]) + Replace(s[1..], [c], rep)
  {
    assert s[..1] == [s[0]];
  }

  /** Replacing one character distributes over concatenation. */
  lemma {:induction false} ReplaceCharConcat(a: string, b: string, c: char, rep: string)
    ensures Replace(a + b, [c], rep) == Replace(a, [c], rep) + Replace(b, [c], rep)
    decreases |a|
  {
    if a == [] {
      assert a + b == b;
    } else {
      var x := a + b;
      var head := if a[0] == c then rep else [a[0]];
      assert x[0] == a[0];
      assert x[1..] == a[1..] + b;
      ReplaceCharUnfold(x, c, rep);
      ReplaceCharUnfold(a, c, rep);
      var ra, rb := Replace(a[1..], [c], rep), Replace(b, [c], rep);
      assert Replace(x, [c], rep) == head + Replace(a[1..] + b, [c], rep);
      assert Replace(a, [c], rep) == head + ra;
      ReplaceCharConcat(a[1..], b, c, rep);
      assert Replace(a[1..] + b, [c], rep) == ra + rb;
      assert head + (ra + rb) == (head + ra) + rb;
    }
  }

  /** A character's replacement steps over a text that does not contain it. */
  lemma {:induction false} ReplaceCharAbsent(s: string, c: char, rep: string)
    requires c !in s
    ensures Replace(s, [c], rep) == s
    decreases |s|
  {
    if s != [] {
      ReplaceCharUnfold(s, c, rep);
      assert s[0] != c;
      ReplaceCharAbsent(s[1..], c, rep);
      assert s == [s[0]] + s[1..];
    }
  }

  lemma ReplaceSingle(d: char, c: char, rep: string)
    ensures Replace([d], [c], rep) == if d == c then rep else [d]
  {
    ReplaceCharUnfold([d], c, rep);
    assert [d][1..] == [];
  }

  /** One character through all five passes. */
  lemma HeadPasses(c: char)
    ensures Passes([c]) == EscapeChar(c)
  {
    ReplaceSingle(c, '&', "&amp;");
    var s1 := Replace([c], "&", "&amp;");
    if c == '&' {
      PassesAfterAmp(s1);
    } else {
      assert s1 == [c];
      ReplaceSingle(c, '"', "&quot;");
      var s2 := Replace(s1, "\"", "&quot;");
      if c == '"' {
        ReplaceCharAbsent(s2, '\'', "&apos;");
        ReplaceCharAbsent(s2, '<', "&lt;");
        ReplaceCharAbsent(s2, '>', "&gt;");
      } else {
        assert s2 == [c];
        ReplaceSingle(c, '\'', "&apos;");
        var s3 := Replace(s2, "'", "&apos;");
        if c == '\'' {
          ReplaceCharAbsent(s3, '<', "&lt;");
          ReplaceCharAbsent(s3, '>', "&gt;");
        } else {
          assert s3 == [c];
          ReplaceSingle(c, '<', "&lt;");
          var s4 := Replace(s3, "<", "&lt;");
          if c == '<' {
            ReplaceCharAbsent(s4, '>', "&gt;");
          } else {
            assert s4 == [c];
            ReplaceSingle(c, '>', "&gt;");
          }
        }
      }
    }
  }

  lemma PassesAfterAmp(s1: string)
    requires s1 == "&amp;"
    ensures Replace(Replace(Replace(Replace(s1, "\"", "&quot;"), "'", "&apos;"), "<", "&lt;"), ">", "&gt;") == "&amp;"
  {
    ReplaceCharAbsent(s1, '"', "&quot;");
    ReplaceCharAbsent(s1, '\'', "&apos;");
    ReplaceCharAbsent(s1, '<', "&lt;");
    ReplaceCharAbsent(s1, '>', "&gt;");
  }

  /** Each pass distributes over concatenation, so do all five. */
  lemma PassesConcat(a: string, b: string)
    ensures Passes(a + b) == Passes(a) + Passes(b)
  {
    ReplaceCharConcat(a, b, '&', "&amp;");
    var a1, b1 := Replace(a, "&", "&amp;"), Replace(b, "&", "&amp;");
    ReplaceCharConcat(a1, b1, '"', "&quot;");
    var a2, b2 := Replace(a1, "\"", "&quot;"), Replace(b1, "\"", "&quot;");
    ReplaceCharConcat(a2, b2, '\'', "&apos;");
    var a3, b3 := Replace(a2, "'", "&apos;"), Replace(b2, "'", "&apos;");
    ReplaceCharConcat(a3, b3, '<', "&lt;");
    var a4, b4 := Replace(a3, "<", "&lt;"), Replace(b3, "<", "&lt;");
    ReplaceCharConcat(a4, b4, '>', "&gt;");
  }

  /** The sequential passes equal escaping each character on its own. */
  lemma {:induction false} PassesArePerChar(s: string)
    ensures Passes(s) == EscapeEach(s)
    decreases |s|
  {
    if s != [] {
      assert s == [s[0]] + s[1..];
      PassesConcat([s[0]], s[1..]);
      HeadPasses(s[0]);
      PassesArePerChar(s[1..]);
    }
  }

  lemma EscapeCharNoRaw(c: char)
    ensures NoRawMarkup(EscapeChar(c))
  {
    var h := EscapeChar(c);
    if c == '&' {
      assert h == ['&', 'a', 'm', 'p', ';'];
    } else if c == '"' {
      assert h == ['&', 'q', 'u', 'o', 't', ';'];
    } else if c == '\'' {
      assert h == ['&', 'a', 'p', 'o', 's', ';'];
    } else if c == '<' {
      assert h == ['&', 'l', 't', ';'];
    } else if c == '>' {
      assert h == ['&', 'g', 't', ';'];
    }
  }

  lemma {:induction false} EscapeEachNoRaw(s: string)
    ensures NoRawMarkup(EscapeEach(s))
    decreases |s|
  {
    if s != [] {
      EscapeEachNoRaw(s[1..]);
      var h, t := EscapeChar(s[0]), EscapeEach(s[1..]);
      var r := h + t;
      forall i | 0 <= i < |r|
        ensures r[i] != '"' && r[i] != '\'' && r[i] != '<' && r[i] != '>'
      {
        if i < |h| {
          EscapeCharNoRaw(s[0]);
          assert r[i] == h[i];
        } else {
          assert r[i] == t[i - |h|];
        }
      }
    }
  }

  /** Text with no special character is left as it is. */
  lemma {:induction false} EscapeEachIdentity(s: string)
    ensures (forall i | 0 <= i < |s| :: !Special(s[i])) ==> EscapeEach(s) == s
    decreases |s|
  {
    if s != [] {
      EscapeEachIdentity(s[1..]);
      if forall i | 0 <= i < |s| :: !Special(s[i]) {
        assert !Special(s[0]);
        assert s == [s[0]] + s[1..];
      }
    }
  }

  /** The five entities. */
  predicate StartsWithEntity(t: string)
  {
    || StartsWith(t, "&amp;")
    || StartsWith(t, "&quot;")
    || StartsWith(t, "&apos;")
    || StartsWith(t, "&lt;")
    || StartsWith(t, "&gt;")
  }

  lemma {:induction false} EscapeEachEntities(s: string)
    ensures AmpersandsOpenEntities(EscapeEach(s))
    decreases |s|
  {
    if s != [] {
      EscapeEachEntities(s[1..]);
      var h, t := EscapeChar(s[0]), EscapeEach(s[1..]);
      var r := h + t;
      forall i | 0 <= i < |r| && r[i] == '&'
        ensures StartsWithEntity(r[i..])
      {
        if i < |h| {
          assert i == 0 && Special(s[0]);
          assert r[i..] == h + t;
          EntityHead(s[0], t);
        } else {
          assert r[i] == t[i - |h|];
          assert r[i..] == t[i - |h|..];
        }
      }
    }
  }

  /** Reads entities back into the characters they stand for. */
  function Unescape(t: string): string
    decreases |t|
  {
    if t == [] then []
    else if StartsWith(t, "&amp;") then "&" + Unescape(t[5..])
    else if StartsWith(t, "&quot;") then "\"" + Unescape(t[6..])
    else if StartsWith(t, "&apos;") then "'" + Unescape(t[6..])
    else if StartsWith(t, "&lt;") then "<" + Unescape(t[4..])
    else if StartsWith(t, "&gt;") then ">" + Unescape(t[4..])
    else [t[0]] + Unescape(t[1..])
  }

  /** A special character's escape opens an entity. */
  lemma EntityHead(c: char, t: string)
    requires Special(c)
    ensures StartsWithEntity(EscapeChar(c) + t)
  {
    var r := EscapeChar(c) + t;
    assert r[..|EscapeChar(c)|] == EscapeChar(c);
  }

  /** A text that differs from `p` at position `i` does not start with `p`. */
  lemma DiffersAt(r: string, p: string, i: nat)
    requires i < |p| && i < |r| && r[i] != p[i]
    ensures !StartsWith(r, p)
  {
    if |p| <= |r| {
      assert r[..|p|][i] == r[i];
    }
  }

  /** Unescaping reads one escaped character back. */
  lemma UnescapeHead(c: char, t: string)
    ensures Unescape(EscapeChar(c) + t) == [c] + Unescape(t)
  {
    var h := EscapeChar(c);
    var r := h + t;
    assert r[..|h|] == h;
    assert r[|h|..] == t;
    assert forall i | 0 <= i < |h| :: r[i] == h[i];
    if c == '&' {
      assert StartsWith(r, "&amp;");
    } else if c == '"' {
      DiffersAt(r, "&amp;", 1);
      assert StartsWith(r, "&quot;");
    } else if c == '\'' {
      DiffersAt(r, "&amp;", 2);
      DiffersAt(r, "&quot;", 1);
      assert StartsWith(r, "&apos;");
    } else if c == '<' {
      DiffersAt(r, "&amp;", 1);
      DiffersAt(r, "&quot;", 1);
      DiffersAt(r, "&apos;", 1);
      assert StartsWith(r, "&lt;");
    } else if c == '>' {
      DiffersAt(r, "&amp;", 1);
      DiffersAt(r, "&quot;", 1);
      DiffersAt(r, "&apos;", 1);
      DiffersAt(r, "&lt;", 1);
      assert StartsWith(r, "&gt;");
    } else {
      assert h == [c];
      DiffersAt(r, "&amp;", 0);
      DiffersAt(r, "&quot;", 0);
      DiffersAt(r, "&apos;", 0);
      DiffersAt(r, "&lt;", 0);
      DiffersAt(r, "&gt;", 0);
      assert r[1..] == t;
    }
  }

  lemma {:induction false} UnescapeEscapeEach(s: string)
    ensures Unescape(EscapeEach(s)) == s
    decreases |s|
  {
    if s != [] {
      UnescapeEscapeEach(s[1..]);
      UnescapeHead(s[0], EscapeEach(s[1..]));
      assert s == [s[0]] + s[1..];
    }
  }
}

=== FILE: examples.dfy ===
/** Worked inputs with their exact outputs. Each key is passed as a
    parameter pinned by a precondition, so that the verifier unfolds the
    sanitiser step by step instead of evaluating it on a literal. */
module Examples {
  import opened Values
  import opened Text
  import opened Escape
  import opened Attrs
  import opened Sanitiser
  import opened Convert
  import opened ConvertProps

  /** A numeric key gets the `n` prefix. */
  lemma NumericKeyExample(key: string, parser: string -> bool)
    requires key == "123"
    ensures var r := MakeValidXmlName(key, [], map[], parser);
      r.name == "n123" && r.attr == []
  {
    assert forall i | 0 <= i < |key| :: !Special(key[i]);
    assert EscapeXml(key) == key;
    assert !NameStart(key[0]);
    assert RemoveFirstDot(key) == key by {
      assert '.' !in key;
    }
    assert AllDigits(key);
  }

  /** The space of `my key` becomes an underscore. */
  lemma SpaceReplaced(key: string)
    requires key == "my key"
    ensures Replace(key, " ", "_") == "my_key"
  {
    ReplaceCharUnfold(key, ' ', "_");
    ReplaceCharUnfold(key[1..], ' ', "_");
    ReplaceCharUnfold(key[2..], ' ', "_");
    ReplaceCharUnfold(key[3..], ' ', "_");
    ReplaceCharUnfold(key[4..], ' ', "_");
    ReplaceCharUnfold(key[5..], ' ', "_");
    assert key[6..] == [];
  }

  /** `my key` escapes to itself and is neither a name nor a number. */
  lemma SpacedKeyTiers(key: string)
    requires key == "my key"
    ensures EscapeXml(key) == key && !NamePattern(key) && !NumericKey(key)
  {
    assert forall i | 0 <= i < |key| :: !Special(key[i]);
    assert EscapeXml(key) == key;
    assert !NameChar(key[2]);
    assert RemoveFirstDot(key) == key by {
      assert '.' !in key;
    }
    assert !IsDigit(key[0]);
  }

  /** A key with a space has it made an underscore. */
  lemma SpacedKeyExample(key: string, parser: string -> bool)
    requires key == "my key"
    requires PatternAdmitted(parser)
    ensures var r := MakeValidXmlName(key, [], map[], parser);
      r.name == "my_key" && r.attr == []
  {
    SpacedKeyTiers(key);
    SpaceReplaced(key);
    var u := Replace(key, " ", "_");
    assert StrictName(u);
    UnderscoreTier(key, parser);
  }

  /** The third tier: a key that is neither a name nor a number, whose
      underscored form is a name, is renamed to that form. */
  lemma UnderscoreTier(key: string, parser: string -> bool)
    requires EscapeXml(key) == key && !NamePattern(key) && !NumericKey(key)
    requires PatternAdmitted(parser) && NamePattern(Replace(key, " ", "_"))
    ensures var r := MakeValidXmlName(key, [], map[], parser);
      r.name == Replace(key, " ", "_") && r.attr == []
  {
    assert CacheSound(parser, map[]);
  }

  /** A key that no tier repairs becomes `key`, with the escaped original
      in a `name` attribute. */
  lemma FallbackKeyExample(key: string, parser: string -> bool)
    requires key == "1 a"
    ensures var r := MakeValidXmlName(key, [], map[], parser);
      r.name == "key" && r.attr == [("name", key)]
  {
    assert forall i | 0 <= i < |key| :: !Special(key[i]);
    assert EscapeXml(key) == key;
    assert !NameStart(key[0]);
    assert RemoveFirstDot(key) == key by {
      assert '.' !in key;
    }
    assert !IsDigit(key[1]);
    var u := Replace(key, " ", "_");
    assert u == "1_a" by {
      ReplaceCharUnfold(key, ' ', "_");
      ReplaceCharUnfold(key[1..], ' ', "_");
      ReplaceCharUnfold(key[2..], ' ', "_");
      assert key[3..] == [];
    }
    assert !NameStart(u[0]);
    assert !NamePattern(u);
  }

  /** `None` under the default `item_func` becomes an empty element named
      after its parent, tagged `null`. */
  lemma NoneElement(parent: string, opts: Options, st: State)
    requires NamePattern(parent)
    requires opts.attrType && opts.itemFunc.Default?
    requires PatternAdmitted(opts.parser) && CacheSound(opts.parser, st.cache)
    ensures var r := ConvertValue(Null, opts, parent, st);
      r.Ok? && r.value.xml == Element(parent, [("type", "null")], "")
  {
    SanitiseKeepsPatternNames(parent, [], st.cache, opts.parser);
    assert SetAttr([], "type", "null") == [("type", "null")];
  }

  /** `None` at top level becomes an element named after the root, inside
      the root element. */
  lemma NoneDocument(root: string, encoding: string, opts: Options, st: State)
    requires NamePattern(root)
    requires opts.attrType && opts.itemFunc.Default?
    requires PatternAdmitted(opts.parser) && CacheSound(opts.parser, st.cache)
    ensures var doc := Document(true, root, true, true, encoding);
      var r := DictToXml(Null, doc, opts, st);
      r.Ok? && r.value.xml == Declaration(doc) + Element(root, [], Element(root, [("type", "null")], ""))
  {
    NoneElement(root, opts, st);
    var doc := Document(true, root, true, true, encoding);
    var body := ConvertValue(Null, opts, root, st);
    assert DictToXml(Null, doc, opts, st) == Ok(Out(Frame(doc, body.value.xml), body.value.st));
    FrameRooted(doc, body.value.xml);
  }
}

=== FILE: ids.dfy ===
/** `make_id` and `get_unique_id`: element ids drawn at random and checked
    against the process-wide registry of ids already handed out. */
module Ids {
  import opened Values
  import opened Text

  const Low: nat := 100000
  const High: nat := 999999

  /** The number `randint(100000, 999999)` returns for one random draw. */
  function Candidate(d: nat): (n: nat)
    ensures Low <= n <= High
  {
    Low + d % (High - Low + 1)
  }

  /** `make_id`: the element name, an underscore and the decimal digits of
      a number between 100000 and 999999. */
  function MakeId(element: string, d: nat): string
  {
    element + "_" + NatToString(Candidate(d))
  }

  /** Every id is the element name, `_` and a number in the range. */
  lemma MakeIdShape(element: string, d: nat)
    ensures exists n :: Low <= n <= High && MakeId(element, d) == element + "_" + NatToString(n)
  {
    var n := Candidate(d);
    assert Low <= n <= High && MakeId(element, d) == element + "_" + NatToString(n);
  }

  /** `t` is what is left of `s` after some draws from its front. */
  predicate IsSuffix(t: seq<nat>, s: seq<nat>)
  {
    |t| <= |s| && t == s[|s| - |t|..]
  }

  datatype Allocation = Allocation(id: string, registry: set<string>, draws: seq<nat>)

  /** What a successful `get_unique_id` on `draws` hands back: an id not
      handed out before, which the registry gains; the draws left over,
      a proper suffix; the id made from the last draw consumed; and every
      draw before that one collided with the registry. */
  predicate Allocated(element: string, registry: set<string>, draws: seq<nat>, a: Allocation)
  {
    && a.id !in registry && a.registry == registry + {a.id}
    && |a.draws| < |draws| && IsSuffix(a.draws, draws)
    && a.id == MakeId(element, draws[|draws| - |a.draws| - 1])
    && AllCollide(element, registry, draws[..|draws| - |a.draws| - 1])
  }

  /** `get_unique_id`: draws until the candidate is not in the registry, then
      records it. The random draws are an input; the source loops forever
      when every draw collides, which here is the failure `IdsExhausted`. */
  function GetUniqueId(element: string, registry: set<string>, draws: seq<nat>): (r: Result<Allocation>)
    ensures r.Ok? ==> Allocated(element, registry, draws, r.value)
    ensures r.Err? ==> r.error == IdsExhausted(element)
    decreases |draws|
  {
    if draws == [] then Err(IdsExhausted(element))
    else
      var id := MakeId(element, draws[0]);
      if id in registry then
        var r := GetUniqueId(element, registry, draws[1..]);
        if r.Ok? then
          AllocatedAfterCollision(element, registry, draws, r.value);
          r
        else r
      else
        FirstDrawAllocated(element, registry, draws);
        Ok(Allocation(id, registry + {id}, draws[1..]))
  }

  /** A first draw that is free is the allocation. */
  lemma FirstDrawAllocated(element: string, registry: set<string>, draws: seq<nat>)
    requires draws != [] && MakeId(element, draws[0]) !in registry
    ensures var id := MakeId(element, draws[0]);
      Allocated(element, registry, draws, Allocation(id, registry + {id}, draws[1..]))
  {
    assert draws[..0] == [];
  }

  /** A first draw that collides leaves the allocation made from the rest. */
  lemma AllocatedAfterCollision(element: string, registry: set<string>, draws: seq<nat>, a: Allocation)
    requires draws != [] && MakeId(element, draws[0]) in registry
    requires Allocated(element, registry, draws[1..], a)
    ensures Allocated(element, registry, draws, a)
  {
    var n, t := |draws|, |a.draws|;
    assert IsSuffix(a.draws, draws) by {
      SuffixAfterCollision(draws, t);
    }
    assert a.id == MakeId(element, draws[n - t - 1]) by {
      SuffixAfterCollision(draws, t);
    }
    assert AllCollide(element, registry, draws[..n - t - 1]) by {
      CollisionsAfterCollision(element, registry, draws, t);
    }
  }

  /** The leftover and the last draw consumed, seen from `draws[1..]` and
      from `draws`. */
  lemma SuffixAfterCollision(draws: seq<nat>, t: nat)
    requires t < |draws| - 1
    ensures draws[|draws| - t..] == draws[1..][|draws| - 1 - t..]
    ensures draws[|draws| - t - 1] == draws[1..][|draws| - t - 2]
  {
  }

  /** The collisions before the last draw consumed, seen from `draws[1..]`
      and from `draws`, when the first draw collides too. */
  lemma CollisionsAfterCollision(element: string, registry: set<string>, draws: seq<nat>, t: nat)
    requires t < |draws| - 1 && MakeId(element, draws[0]) in registry
    requires AllCollide(element, registry, draws[1..][..|draws| - t - 2])
    ensures AllCollide(element, registry, draws[..|draws| - t - 1])
  {
    var p := draws[..|draws| - t - 1];
    assert p[1..] == draws[1..][..|draws| - t - 2];
  }

  /** Every draw yields an id the registry already holds. */
  predicate AllCollide(element: string, registry: set<string>, draws: seq<nat>)
    decreases |draws|
  {
    draws == [] || (MakeId(element, draws[0]) in registry && AllCollide(element, registry, draws[1..]))
  }

  /** `AllCollide` read position by position. */
  lemma {:induction false} AllCollideAt(element: string, registry: set<string>, draws: seq<nat>)
    ensures AllCollide(element, registry, draws) <==>
            forall k | 0 <= k < |draws| :: MakeId(element, draws[k]) in registry
    decreases |draws|
  {
    if draws != [] {
      var rest := draws[1..];
      AllCollideAt(element, registry, rest);
      assert forall k | 1 <= k < |draws| :: draws[k] == rest[k - 1];
      if !AllCollide(element, registry, rest) {
        var j :| 0 <= j < |rest| && MakeId(element, rest[j]) !in registry;
        assert draws[j + 1] == rest[j];
      }
    }
  }

  /** A colliding draw in front of colliding draws. */
  lemma AllCollideCons(element: string, registry: set<string>, d: nat, ds: seq<nat>)
    requires MakeId(element, d) in registry && AllCollide(element, registry, ds)
    ensures AllCollide(element, registry, [d] + ds)
  {
    assert ([d] + ds)[1..] == ds;
  }

  /** Allocation fails exactly when every draw collides. */
  lemma {:induction false} ExhaustedIffAllCollide(element: string, registry: set<string>, draws: seq<nat>)
    ensures GetUniqueId(element, registry, draws).Err? <==> AllCollide(element, registry, draws)
    decreases |draws|
  {
    if draws != [] {
      ExhaustedIffAllCollide(element, registry, draws[1..]);
    }
  }

  /** Repeated allocations hand out distinct ids. */
  lemma SuccessiveIdsDiffer(e1: string, e2: string, registry: set<string>, draws: seq<nat>)
    requires GetUniqueId(e1, registry, draws).Ok?
    ensures var a := GetUniqueId(e1, registry, draws).value;
      var b := GetUniqueId(e2, a.registry, a.draws);
      b.Ok? ==> b.value.id != a.id && a.id in b.value.registry
  {
  }

  /** The id of list item `i`: `f'{this_id}_{i+1}'`. */
  function ItemId(listId: string, i: nat): (r: string)
    ensures StartsWith(r, listId + "_")
    ensures AllDigits(r[|listId| + 1..])
    ensures ParseNat(r[|listId| + 1..]) == i + 1
  {
    var r := listId + "_" + NatToString(i + 1);
    assert r[|listId| + 1..] == NatToString(i + 1);
    ParseNatToString(i + 1);
    r
  }

  /** The items of one list get pairwise distinct ids. */
  lemma ItemIdsDistinct(listId: string, i: nat, j: nat)
    requires i != j
    ensures ItemId(listId, i) != ItemId(listId, j)
  {
    var k := |listId| + 1;
    assert ItemId(listId, i)[k..] != ItemId(listId, j)[k..];
  }
}

=== FILE: sanitiser.dfy ===
/** `make_valid_xml_name` and the memoised validity test `key_is_valid_xml`
    behind it. The pattern is an ASCII subset of the `Name` production of
    section 2.3 of XML 1.0. */
module Sanitiser {
  import opened Values
  import opened Text
  import opened Escape
  import opened Attrs

  predicate NameStart(c: char)
  {
    ('a' <= c <= 'z') || ('A' <= c <= 'Z') || c == '_'
  }

  predicate NameChar(c: char)
  {
    NameStart(c) || IsDigit(c) || c == '.' || c == '-'
  }

  /** `[a-zA-Z_][a-zA-Z0-9._-]*` matching all of `s`. */
  predicate StrictName(s: string)
  {
    |s| >= 1 && NameStart(s[0]) && forall i | 1 <= i < |s| :: NameChar(s[i])
  }

  /** `valid_xml_name_pattern.match(s)`. Python's `$` also matches just
      before a final newline, so one trailing `\n` is let through. */
  predicate NamePattern(s: string)
  {
    || StrictName(s)
    || (|s| >= 2 && s[|s| - 1] == '\n' && StrictName(s[..|s| - 1]))
  }

  /** The verdict `key_is_valid_xml` computes on a cache miss: the pattern
      matches and the parser accepts the test document for the name. */
  predicate Valid(parser: string -> bool, s: string)
  {
    NamePattern(s) && parser(s)
  }

  /** Every cached verdict is the one a miss would compute. */
  predicate CacheSound(parser: string -> bool, cache: map<string, bool>)
  {
    forall k | k in cache :: cache[k] == Valid(parser, k)
  }

  /** The parser accepts every name the pattern lets through. */
  ghost predicate PatternAdmitted(parser: string -> bool)
  {
    forall s :: NamePattern(s) ==> parser(s)
  }

  /** `c'` keeps every entry of `c` unchanged. */
  predicate Extends(c: map<string, bool>, c': map<string, bool>)
  {
    forall k | k in c :: k in c' && c'[k] == c[k]
  }

  datatype Checked = Checked(valid: bool, cache: map<string, bool>)

  /** `key_is_valid_xml`, with the process-wide cache passed in and out.
      A cached verdict is returned as it is and never replaced; a miss
      records the verdict it returns, and records `true` only for a key the
      pattern matches. */
  function KeyIsValidXml(key: string, cache: map<string, bool>, parser: string -> bool): (r: Checked)
    ensures key in cache ==> r == Checked(cache[key], cache)
    ensures key !in cache ==> r.cache == cache[key := r.valid]
    ensures key !in cache ==> (r.valid <==> Valid(parser, key))
    ensures key !in cache && r.valid ==> NamePattern(key)
    ensures Extends(cache, r.cache) && key in r.cache && r.cache[key] == r.valid
    ensures CacheSound(parser, cache) ==> r.valid == Valid(parser, key) && CacheSound(parser, r.cache)
  {
    if key in cache then Checked(cache[key], cache)
    else if !NamePattern(key) then Checked(false, cache[key := false])
    else if parser(key) then Checked(true, cache[key := true])
    else Checked(false, cache[key := false])
  }

  /** A second test of the same key is a cache hit with the same verdict
      and leaves the cache as the first test left it. */
  lemma KeyIsValidXmlIdempotent(key: string, cache: map<string, bool>, parser: string -> bool)
    ensures var r1 := KeyIsValidXml(key, cache, parser);
      KeyIsValidXml(key, r1.cache, parser) == r1
  {
  }

  /** `s.replace('.', '', 1)`. */
  function RemoveFirstDot(s: string): (r: string)
    ensures '.' !in s ==> r == s
    ensures '.' in s ==> |r| == |s| - 1
    ensures forall c | c in r :: c in s
  {
    if s == [] then []
    else if s[0] == '.' then s[1..]
    else [s[0]] + RemoveFirstDot(s[1..])
  }

  /** `str(key).replace('.', '', 1).isdigit()` with ASCII digits: digits
      and at most one dot, at least one digit. */
  predicate NumericKey(s: string)
  {
    var t := RemoveFirstDot(s);
    |t| >= 1 && AllDigits(t)
  }

  /** A numeric key made into a name by the `n` prefix matches the pattern. */
  lemma NumericKeyPrefixed(s: string)
    requires NumericKey(s)
    ensures StrictName("n" + s)
  {
    var t := RemoveFirstDot(s);
    forall i | 0 <= i < |s|
      ensures IsDigit(s[i]) || s[i] == '.'
    {
      if s[i] != '.' {
        assert s[i] in s;
        RemoveFirstDotKeeps(s, i);
      }
    }
    var n := "n" + s;
    forall i | 1 <= i < |n|
      ensures NameChar(n[i])
    {
      assert n[i] == s[i - 1];
    }
  }

  /** A character other than `.` survives the removal of the first dot. */
  lemma {:induction false} RemoveFirstDotKeeps(s: string, i: int)
    requires 0 <= i < |s| && s[i] != '.'
    ensures s[i] in RemoveFirstDot(s)
  {
    if s[0] != '.' && i > 0 {
      RemoveFirstDotKeeps(s[1..], i - 1);
    } else if s[0] == '.' {
      assert s[i] == s[1..][i - 1];
    }
  }

  /** The `$` of the pattern: a name followed by one newline still
      matches, although the newline is no name character. */
  lemma NamePatternNewline(s: string)
    requires StrictName(s)
    ensures NamePattern(s + "\n") && !StrictName(s + "\n")
  {
    var t := s + "\n";
    assert t[..|t| - 1] == s;
    assert !NameChar(t[|t| - 1]);
  }

  /** Where the first `.` of a text is. */
  function FirstDot(s: string): (k: nat)
    requires '.' in s
    ensures k < |s| && s[k] == '.'
    ensures forall j | 0 <= j < k :: s[j] != '.'
  {
    if s[0] == '.' then 0
    else
      assert '.' in s[1..] by {
        var j :| 0 <= j < |s| && s[j] == '.';
        assert s[1..][j - 1] == '.';
      }
      1 + FirstDot(s[1..])
  }

  /** The removal of the first dot is the text before the first `.`
      followed by the text after it. */
  lemma {:induction false} RemoveFirstDotSpec(s: string)
    requires '.' in s
    ensures RemoveFirstDot(s) == s[..FirstDot(s)] + s[FirstDot(s) + 1..]
    decreases |s|
  {
    if s[0] != '.' {
      var t := s[1..];
      assert '.' in t by {
        var j :| 0 <= j < |s| && s[j] == '.';
        assert t[j - 1] == '.';
      }
      RemoveFirstDotSpec(t);
      var k := FirstDot(t);
      assert FirstDot(s) == k + 1;
      assert s[..k + 1] == [s[0]] + t[..k];
      assert s[k + 2..] == t[k + 1..];
    }
  }

  /** Only digits and dots, no two dots, at least one digit. */
  predicate DigitsOneDot(s: string)
  {
    && (forall i | 0 <= i < |s| :: IsDigit(s[i]) || s[i] == '.')
    && (forall i, j | 0 <= i < j < |s| :: s[i] != '.' || s[j] != '.')
    && (exists i | 0 <= i < |s| :: IsDigit(s[i]))
  }

  /** `isdigit()` after removing the first dot accepts exactly the texts of
      digits with at most one dot and at least one digit. */
  lemma NumericKeyIff(s: string)
    ensures NumericKey(s) <==> DigitsOneDot(s)
  {
    if '.' in s {
      NumericKeyWithDot(s);
    } else {
      assert RemoveFirstDot(s) == s;
      if DigitsOneDot(s) {
        var i :| 0 <= i < |s| && IsDigit(s[i]);
        assert forall j | 0 <= j < |s| :: s[j] != '.';
      }
    }
  }

  lemma NumericKeyWithDot(s: string)
    requires '.' in s
    ensures NumericKey(s) <==> DigitsOneDot(s)
  {
    RemoveFirstDotSpec(s);
    var k := FirstDot(s);
    var r := RemoveFirstDot(s);
    assert |r| == |s| - 1;
    assert forall j | 0 <= j < |r| :: r[j] == s[if j < k then j else j + 1];
    if NumericKey(s) {
      forall i | 0 <= i < |s|
        ensures IsDigit(s[i]) || s[i] == '.'
      {
        if i < k { assert s[i] == r[i]; } else if i > k { assert s[i] == r[i - 1]; }
      }
      forall i, j | 0 <= i < j < |s|
        ensures s[i] != '.' || s[j] != '.'
      {
        if j > k { assert s[j] == r[j - 1]; }
      }
      assert IsDigit(s[if k == 0 then 1 else 0]);
    }
    if DigitsOneDot(s) {
      forall j | 0 <= j < |r|
        ensures IsDigit(r[j])
      {
        var p := if j < k then j else j + 1;
        assert r[j] == s[p] && p != k;
        assert s[p] != '.' by {
          if p < k { assert s[p] != '.'; } else { assert s[k] == '.'; }
        }
      }
      var i :| 0 <= i < |s| && IsDigit(s[i]);
      assert i != k;
    }
  }

  /** A pattern name has no character `escape_xml` touches. */
  lemma PatternHasNoSpecials(s: string)
    requires NamePattern(s)
    ensures forall i | 0 <= i < |s| :: !Special(s[i])
  {
    if !StrictName(s) {
      var p := s[..|s| - 1];
      forall i | 0 <= i < |s| - 1
        ensures !Special(s[i])
      {
        assert s[i] == p[i];
      }
    }
  }

  datatype Named = Named(name: string, attr: Attrs, cache: map<string, bool>)

  /** `make_valid_xml_name`. The key is escaped, then the first tier that
      applies names the element: the key itself if valid; `n` + key if it is
      a number; the key with spaces made underscores if that is valid;
      otherwise `key`, with the escaped key kept in a `name` attribute. Only
      the last tier touches the attributes. With a sound cache the name
      always matches the pattern, whatever the parser accepts. */
  function MakeValidXmlName(key: string, attr: Attrs, cache: map<string, bool>, parser: string -> bool): (r: Named)
    ensures Extends(cache, r.cache)
    ensures r.attr != attr ==> r.name == "key" && r.attr == SetAttr(attr, "name", EscapeXml(key))
    ensures CacheSound(parser, cache) ==> CacheSound(parser, r.cache)
    ensures CacheSound(parser, cache) ==>
      var e := EscapeXml(key);
      var u := Replace(e, " ", "_");
      && (Valid(parser, e) ==> r.name == e && r.attr == attr)
      && (!Valid(parser, e) && NumericKey(e) ==> r.name == "n" + e && r.attr == attr)
      && (!Valid(parser, e) && !NumericKey(e) && Valid(parser, u) ==> r.name == u && r.attr == attr)
      && (!Valid(parser, e) && !NumericKey(e) && !Valid(parser, u) ==>
            r.name == "key" && r.attr == SetAttr(attr, "name", e))
    ensures CacheSound(parser, cache) ==> NamePattern(r.name)
  {
    var e := EscapeXml(key);
    var c1 := KeyIsValidXml(e, cache, parser);
    if c1.valid then Named(e, attr, c1.cache)
    else if NumericKey(e) then
      NumericKeyPrefixed(e);
      Named("n" + e, attr, c1.cache)
    else
      var u := Replace(e, " ", "_");
      var c2 := KeyIsValidXml(u, c1.cache, parser);
      if c2.valid then Named(u, attr, c2.cache)
      else
        assert StrictName("key");
        Named("key", SetAttr(attr, "name", e), c2.cache)
  }

  /** A name that already matches the pattern is kept as it is, with the
      attributes untouched. */
  lemma SanitiseKeepsPatternNames(n: string, attr: Attrs, cache: map<string, bool>, parser: string -> bool)
    requires CacheSound(parser, cache) && PatternAdmitted(parser)
    requires NamePattern(n)
    ensures MakeValidXmlName(n, attr, cache, parser).name == n
    ensures MakeValidXmlName(n, attr, cache, parser).attr == attr
  {
    PatternHasNoSpecials(n);
    assert EscapeXml(n) == n;
  }

  /** Sanitising a sanitised name again, as the leaf emitters do, changes
      neither the name nor the attributes. */
  lemma SanitiseTwiceIsNoOp(key: string, attr: Attrs, attr': Attrs, cache: map<string, bool>, parser: string -> bool)
    requires CacheSound(parser, cache) && PatternAdmitted(parser)
    ensures var r1 := MakeValidXmlName(key, attr, cache, parser);
      var r2 := MakeValidXmlName(r1.name, attr', r1.cache, parser);
      r2.name == r1.name && r2.attr == attr'
  {
    var r1 := MakeValidXmlName(key, attr, cache, parser);
    SanitiseKeepsPatternNames(r1.name, attr', r1.cache, parser);
  }
}

=== FILE: text.dfy ===
/** String primitives the converter is built from: Python's `str.replace`,
    `str.join`, and decimal rendering of integers as `str()` / f-strings do
    it. */
module Text {

  predicate IsDigit(c: char)
  {
    '0' <= c <= '9'
  }

  predicate AllDigits(s: string)
  {
    forall i | 0 <= i < |s| :: IsDigit(s[i])
  }

  function DigitChar(d: nat): (c: char)
    requires d < 10
    ensures IsDigit(c) && c as int - '0' as int == d
  {
    "0123456789"[d]
  }

  function DigitValue(c: char): nat
    requires IsDigit(c)
  {
    c as int - '0' as int
  }

  /** `str(n)` for a non-negative integer. */
  function NatToString(n: nat): (r: string)
    ensures |r| >= 1 && AllDigits(r)
    ensures r[0] == '0' ==> n == 0
  {
    if n < 10 then [DigitChar(n)] else NatToString(n / 10) + [DigitChar(n % 10)]
  }

  /** Reads a run of decimal digits back as a number. */
  function ParseNat(s: string): nat
    requires AllDigits(s)
  {
    if s == [] then 0 else 10 * ParseNat(s[..|s| - 1]) + DigitValue(s[|s| - 1])
  }

  /** Decimal rendering is undone by reading the digits back. */
  lemma {:induction false} ParseNatToString(n: nat)
    ensures ParseNat(NatToString(n)) == n
  {
    if n >= 10 {
      var r := NatToString(n);
      assert r[..|r| - 1] == NatToString(n / 10);
      ParseNatToString(n / 10);
    }
  }

  /** Distinct numbers render differently. */
  lemma NatToStringInjective(m: nat, n: nat)
    ensures NatToString(m) == NatToString(n) ==> m == n
  {
    ParseNatToString(m);
    ParseNatToString(n);
  }

  /** `str(i)` for any integer: a minus sign, then the digits of `|i|`. */
  function IntToString(i: int): (r: string)
  {
    if i < 0 then "-" + NatToString(-i) else NatToString(i)
  }

  function ParseInt(s: string): int
    requires |s| >= 1
    requires s[0] == '-' ==> AllDigits(s[1..])
    requires s[0] != '-' ==> AllDigits(s)
  {
    if s[0] == '-' then -(ParseNat(s[1..]) as int) else ParseNat(s)
  }

  /** Every integer's rendering is a well-formed decimal that reads back as it. */
  lemma IntToStringRoundTrip(i: int)
    ensures var r := IntToString(i);
      && |r| >= 1
      && (r[0] == '-' <==> i < 0)
      && (r[0] == '-' ==> AllDigits(r[1..]))
      && (r[0] != '-' ==> AllDigits(r))
      && ParseInt(r) == i
  {
    if i < 0 {
      ParseNatToString(-i);
      assert IntToString(i)[1..] == NatToString(-i);
    } else {
      ParseNatToString(i);
    }
  }

  /** `pat` starts at index `i` of `s`. */
  predicate OccursAt(s: string, pat: string, i: int)
  {
    0 <= i && i + |pat| <= |s| && s[i..i + |pat|] == pat
  }

  predicate StartsWith(s: string, pre: string)
  {
    |pre| <= |s| && s[..|pre|] == pre
  }

  predicate EndsWith(s: string, suf: string)
  {
    |suf| <= |s| && s[|s| - |suf|..] == suf
  }

  /** Python's `s.replace(pat, rep)`: every non-overlapping occurrence of
      `pat`, found scanning left to right, is replaced by `rep`. */
  function Replace(s: string, pat: string, rep: string): string
    requires |pat| > 0
    decreases |s|
  {
    if |s| < |pat| then s
    else if s[..|pat|] == pat then rep + Replace(s[|pat|..], pat, rep)
    else [s[0]] + Replace(s[1..], pat, rep)
  }

  /** A text with no occurrence of the pattern is returned unchanged. */
  lemma {:induction false} ReplaceAbsent(s: string, pat: string, rep: string)
    requires |pat| > 0
    requires forall i :: !OccursAt(s, pat, i)
    ensures Replace(s, pat, rep) == s
    decreases |s|
  {
    if |pat| <= |s| {
      assert !OccursAt(s, pat, 0);
      assert forall i :: OccursAt(s[1..], pat, i) ==> OccursAt(s, pat, i + 1);
      ReplaceAbsent(s[1..], pat, rep);
      assert s == [s[0]] + s[1..];
    }
  }

  /** Replacing a character by text that does not contain it leaves no
      occurrence of it: every one is replaced, none is created. */
  lemma {:induction false} ReplaceCharGone(s: string, c: char, rep: string)
    requires c !in rep
    ensures c !in Replace(s, [c], rep)
    decreases |s|
  {
    if s != [] {
      assert s[..1] == [s[0]];
      ReplaceCharGone(s[1..], c, rep);
      var tail := Replace(s[1..], [c], rep);
      if s[0] == c {
        assert Replace(s, [c], rep) == rep + tail;
      } else {
        assert Replace(s, [c], rep) == [s[0]] + tail;
      }
    }
  }

  /** Python's `sep.join(parts)`. */
  function Join(parts: seq<string>, sep: string): (r: string)
    ensures |parts| == 0 ==> r == ""
    ensures |parts| >= 1 ==> StartsWith(r, parts[0])
  {
    if |parts| == 0 then ""
    else if |parts| == 1 then parts[0]
    else parts[0] + sep + Join(parts[1..], sep)
  }
}

=== FILE: values.dfy ===
/** The closed value space the converter walks, its error kinds, and the
    conversion options of `dicttoxml`. */
module Values {

  /** The Python values `convert` dispatches on. Integers stand for every
      number; text produced by an `isoformat()` call is a `Str`; tuples are
      `List`s. Anything else is `Unsupported`, carrying the runtime type name
      and the printed form that the `TypeError` message quotes. */
  datatype Value =
    | Null
    | Bool(b: bool)
    | Int(i: int)
    | Str(s: string)
    | Dict(entries: seq<(string, Value)>)
    | List(items: seq<Value>)
    | Unsupported(typeName: string, repr: string)

  /** Ways a conversion fails. */
  datatype Error =
    // `TypeError('Unsupported data type: ...')`
    | UnsupportedType(typeName: string, repr: string)
    // an int or bool reached `.replace` inside `wrap_cdata` (AttributeError)
    | NoReplace(typeName: string)
    // the random draws ran out before a fresh id turned up
    | IdsExhausted(element: string)

  datatype Result<+T> = Ok(value: T) | Err(error: Error)
  {
    predicate IsFailure()
    {
      Err?
    }

    function PropagateFailure<U>(): Result<U>
      requires Err?
    {
      Err(error)
    }

    function Extract(): T
      requires Ok?
    {
      value
    }
  }

  datatype Option<+T> = None | Some(value: T)

  /** How list items are named. The source compares `item_func` against
      `default_item_func` by identity, so a custom function is never the
      default, whatever it computes. */
  datatype ItemFunc = Default | Custom(f: string -> string)
  {
    function Apply(parent: string): string
    {
      match this
      case Default => parent
      case Custom(f) => f(parent)
    }
  }

  /** The options `convert` passes down the recursion. `parser` stands for
      the XML parser that `key_is_valid_xml` asks whether a tiny document
      using the candidate name is well-formed. */
  datatype Options = Options(
    ids: bool,
    attrType: bool,
    itemFunc: ItemFunc,
    cdata: bool,
    parser: string -> bool)

  /** `get_xml_type`: the `type` attribute of a value. */
  function XmlType(v: Value): (r: string)
    ensures !v.Unsupported? ==> (r == "bool" <==> v.Bool?)
    ensures !v.Unsupported? ==> (r == "int" <==> v.Int?)
    ensures !v.Unsupported? ==> (r == "null" <==> v.Null?)
    ensures !v.Unsupported? ==> (r == "str" <==> v.Str?)
    ensures !v.Unsupported? ==> (r == "dict" <==> v.Dict?)
    ensures !v.Unsupported? ==> (r == "list" <==> v.List?)
    ensures v.Unsupported? ==> r == v.typeName
  {
    match v
    case Null => "null"
    case Bool(_) => "bool"
    case Str(_) => "str"
    case Int(_) => "int"
    case Dict(_) => "dict"
    case List(_) => "list"
    case Unsupported(t, _) => t
  }

  /** Two supported values get the same tag exactly when they are of the
      same kind. */
  lemma XmlTypeSeparatesKinds(u: Value, v: Value)
    requires !u.Unsupported? && !v.Unsupported?
    ensures XmlType(u) == XmlType(v) <==> SameKind(u, v)
  {
  }

  predicate SameKind(u: Value, v: Value)
  {
    || (u.Null? && v.Null?)
    || (u.Bool? && v.Bool?)
    || (u.Int? && v.Int?)
    || (u.Str? && v.Str?)
    || (u.Dict? && v.Dict?)
    || (u.List? && v.List?)
    || (u.Unsupported? && v.Unsupported?)
  }
}
